=== FILE: README.md ===
# anytv-node-mysql client core, modelled in Dafny

This project models the decision logic of the `anytv-node-mysql` client, a
thin layer over the `mysql` driver. The driver is replaced by scripted inputs.
Three pieces are modelled:

- **The retry state machine of one logical query** (`lib/Query.js`). The
  last function argument is swapped for a wrapper. On every driver reply the
  wrapper either forwards `(err, result, mysql._args, last_query)` to the
  user callback, or counts one retry on the query's own counter. It then
  either delivers the synthetic `{message: 'Reached max retries'}` or
  re-issues the identical argument tuple.
- **The profile registry and connection lifecycle** of the current client
  (`lib/CustomMySQL.js`) and of the older root client (`CustomMySQL.js`):
  `add`, `use`, `args`, `end`, `retry_if`, `on`, `open`, and the retry limit
  setters. Each is a pure transition on an immutable client record. A throw
  is `Threw(error, state)`, and the state is the client exactly as the throw
  left it. The older client's wrapper threads the client's shared `retries`
  counter through its replies. `Legacy.Resume` and `Legacy.Execute` hold
  every other client field fixed between replies, so a `use` or `retry_if`
  in the middle of a query is expressed by composing `Legacy.OnReply` by hand.
- **The `async` fan-out** shared by both clients. It covers:
  - arity normalisation;
  - the value each item is announced with;
  - the countdown that pushes one entry per completion and calls `fn`.

  Real interleaving is replaced by a given completion order.

Modules: `Js` (the JavaScript values the client inspects), `Registry`
(the profile record, the errors, `end`'s decision, `open`), `Query`, `Batch`,
`Client` (`lib/CustomMySQL.js`) and `Legacy` (`CustomMySQL.js`).

The driver is modelled as follows. Each reply is an `Attempt`: the reply
(`Ok(result)` or `Err(code)`) plus the client fields the wrapper reads when
the reply arrives. Those fields are the retryable codes, `_max_retry`,
`_args`, and whether `current_connection` is set. This is how the model
captures that these fields are read when the callback runs, not when the
query is submitted.

Four behaviours of the code that are easy to misread:

- `use` ends the connection of the profile it has just selected, not the
  one it leaves. It assigns `_key` before calling `end()`.
- `set_max_retry(0)` stores 3, so a limit of 0 cannot be set.
- With a limit of `m`, a persistently failing query queries the connection
  `m` times in all. It does not make `m` retries after a first call.
- Every delivery reports `mysql._args`, the value last passed to `args()`.
  It does not report the query's own argument tuple.

`lib/Connection.js` and `lib/Transaction.js` are not part of this model.
`new Connection(this)` is taken to store a connection in the active profile
and in `current_connection`. Without an active key it is taken to throw.

## Model

| member | source | states |
|---|---|---|
| Js.ConfigKeyOfString | lib/CustomMySQL.js:155-157 | for..in over a string visits its characters, so a string configuration's key is the string itself |
| Js.ConfigKeyIgnoresNames | lib/CustomMySQL.js:155-157 | the derived key depends only on the configuration's values, in order; property names play no part |
| Js.ConfigKeySplits | lib/CustomMySQL.js:155-157 | the key of an object is the keys of any two halves of its properties, concatenated |
| Js.ConfigKeysCollide | lib/CustomMySQL.js:155-163 | two different configurations can derive the same key, so `open` of the second reuses the first's pool |
| Registry.EndDecision | lib/CustomMySQL.js:118-129 | `end` closes exactly when the active key names an exclusive profile with a connection, and keeps a pooled one that has one. It fails with 'Add a connection first' exactly when no key is active, no connection is stored, or the key names a non-profile value such as a method. It fails with a TypeError exactly when the key names nothing at all |
| Registry.OpenProfiles | lib/CustomMySQL.js:159-169 | after `open` the derived key holds a connection; a key that already had one is left untouched, otherwise it becomes a pooled profile of that configuration; no other key changes |
| Query.CallbackIndex | lib/Query.js:61-70 | scanning from the end, the callback is the last function argument; none is found exactly when no argument is a function |
| Query.Issue | lib/Query.js:61-70 | the tuple sent to the connection has the caller's length; exactly the slot the callback scan found holds the wrapper, and every other slot holds the caller's argument unchanged |
| Query.IssueReplacesOnlyCallback | lib/Query.js:61-70 | the wrapper takes the slot of the last function argument and no other; every other argument is passed unchanged, and putting the callback back restores the caller's tuple |
| Query.OnReply | lib/Query.js:44-73 | a wrapper invocation either delivers once or re-issues, never both; it counts only replies whose code is listed in the codes read at that moment; it delivers the exhaustion marker exactly when the incremented counter equals `_max_retry`; it re-issues exactly when the reply is retryable, the limit is not reached and a connection is current; a retryable reply under the limit that finds no connection raises (the re-entered `query` calls `.query` on null); a non-retryable reply is forwarded unchanged with `_args` and `last_query` |
| Query.Resume | lib/Query.js:44-59 | every re-issue sends the identical tuple and follows a retryable reply; the counter grows by the number of retryable replies consumed; a delivery carries the `_args` read at its own reply and the first argument; the reply that ends the run reaches the callback unchanged when it is not retryable, and otherwise the callback gets `('Reached max retries', null)` with the limit equal to the counter |
| Query.Execute | lib/Query.js:20-74 | a query starts its own counter at 0 and queries the connection at least once; the number of calls equals the replies consumed, plus one while a call is outstanding; every call carries the identical tuple; a non-retryable final reply, after any number of retries, reaches the callback unchanged, and a retryable one ends only in the exhaustion marker; without a callback nothing is ever delivered |
| Query.FirstReplyForwarded | lib/Query.js:47-58 | a success or a non-retryable error as first reply reaches the callback unchanged, after exactly one call and no retry |
| Query.SingleCallIff | lib/Query.js:47-58 | the query ends after one call exactly when the first reply is not retryable or the limit is 1 |
| Query.ExhaustsAfterMaxRetry | lib/Query.js:47-54 | when every reply is retryable and the limit is a positive integer m, the connection is queried exactly m times and the callback receives 'Reached max retries' with a null result, not the driver's error |
| Query.AnsweredWithinMaxRetry | lib/Query.js:44-59 | with a positive integer limit m and a connection, the user callback fires within the first m replies, whatever they are |
| Query.UnreachableLimitNeverStops | lib/Query.js:48-54 | a limit that is not a positive integer is never equal to the counter, so retryable replies are re-issued for as long as they come |
| Query.ClearedPolicyStopsRetrying | lib/Query.js:47 | the retryable codes are read when each reply arrives: once they are cleared, the next reply ends the query |
| Batch.Normalise | lib/CustomMySQL.js:206-215 | for three to five arguments, `fn` is the last one passed; with four it is preceded by the collector; only with five or more is `async_args` taken from the arguments |
| Batch.NormaliseShortForms | lib/CustomMySQL.js:206-215 | the four-argument form `(collector, fn)` means `(null, collector, fn)`, and the three-argument form `(fn)` means `(null, undefined, fn)` |
| Batch.ItemQuery | lib/CustomMySQL.js:217-219 | item i is queried with `(query, item, _collector)`: the batch's statement, the item, the collector; the query wrapper finds `_collector`, in third place, as the callback |
| Batch.ItemArg | lib/CustomMySQL.js:217-219 | an item is announced with the own property `async_args[index]` whenever a truthy `async_args` has one (an array element, a string character, an object key), and with the item itself when there is none or `async_args` is falsy |
| Batch.Complete | lib/CustomMySQL.js:192-204 | one run of `_collector` pushes exactly one entry, lowers the countdown by one, and calls `fn` exactly when the countdown reaches zero, with `async_args` or the results so far |
| Batch.Collect | lib/CustomMySQL.js:189-204 | after k completions, the countdown stands at N - k and the k entries are in completion order; `fn` has fired once if 1 <= N <= k and never otherwise; it got `async_args` when truthy, else the first N entries |
| Batch.SilentUntilAllComplete | lib/CustomMySQL.js:199-203 | `fn` does not fire before every item has completed |
| Batch.EmptyBatchNeverFires | lib/CustomMySQL.js:190-203 | with no items `fn` never fires, whatever completions arrive |
| Batch.FiresOnceInCompletionOrder | lib/CustomMySQL.js:189-204 | with N >= 1 items completing once each, `fn` fires exactly once; it receives `async_args` when truthy and otherwise every item's entry in completion order |
| Batch.EveryItemCollected | lib/CustomMySQL.js:199 | every item's entry appears among the results, at the position where it completed |
| Batch.FanOut | lib/CustomMySQL.js:189-204 | a loop that applies `Complete` once per completion puts entry k at completion k. It calls `fn` once exactly when 1 <= N <= completions, and agrees with the closed form `Collect` |
| Client.New | lib/CustomMySQL.js:36-42 | a fresh client has no profiles, no active key, no connection, no retry codes and a limit of 3 |
| Client.SetMaxRetry | lib/CustomMySQL.js:52-54 | the stored limit is always truthy, never 0; it is the given value when truthy and 3 otherwise; nothing else changes |
| Client.SetMaxRetryBoundsCalls | lib/CustomMySQL.js:52-54 | after `set_max_retry(v)`, a query whose every reply is retryable is answered with 'Reached max retries' after exactly v calls for a positive integer v, and after 3 calls for a falsy v |
| Client.SetMaxRetryUnreachable | lib/CustomMySQL.js:52-54 | a truthy limit that is not a positive integer is stored as given, so a persistently failing query is re-issued after every reply and never answered |
| Client.DefaultLimitIsThree | lib/CustomMySQL.js:41 | a fresh client's limit ends a persistently failing query after three calls with the exhaustion marker |
| Client.Connect | lib/CustomMySQL.js:110-112 | connecting marks `current_connection` and gives the active profile a connection, keeping its configuration and pool flag; it throws when no key is active; nothing else changes |
| Client.Add | lib/CustomMySQL.js:58-79 | `add` throws, in this order, for a missing key or config, a non-string key, and a non-object config, leaving the client unchanged; otherwise it stores `{config, is_pool: !!is_pool}`, connected exactly when pooled, and makes the key active |
| Client.End | lib/CustomMySQL.js:118-129 | `end` on an exclusive profile clears both the profile's connection and `current_connection`; on a pooled profile it changes nothing; it throws exactly when no key is active or no connection is stored; with a built-in name active it throws 'Add a connection first' |
| Client.Use | lib/CustomMySQL.js:83-96 | `use` throws for a key never added and leaves the client alone; otherwise the key becomes active and the retry codes are cleared, even when the `end()` it runs then throws |
| Client.UseEndsSelectedProfile | lib/CustomMySQL.js:88-93 | with a current connection, `use` runs `end()` on the newly selected profile: an exclusive one is closed, a pooled one kept, one with no connection makes `use` throw after switching; every other profile keeps its connection |
| Client.UseRejectsUnknownKey | lib/CustomMySQL.js:84-86 | a key throws 'Key does not exist' exactly when it was never added, and every `use` keeps the active key naming a registered profile |
| Client.UseAsWritten | lib/CustomMySQL.js:84-96 | the guard read on the client object agrees with `Use` for registered keys and rejects other keys unless they name a built-in property. A built-in name becomes the active key with the codes cleared; the `end()` that follows throws 'Add a connection first' exactly when a connection is current |
| Client.UseAcceptsBuiltinName | lib/CustomMySQL.js:84-125 | as written, `use('toString')` and `use('__lookupGetter__')` on a fresh client succeed and leave an active key that names no profile. `args` then accepts that key, and `end()` throws 'Add a connection first' |
| Client.Args | lib/CustomMySQL.js:99-106 | `args` throws exactly when no key is active; otherwise it records the values for later deliveries |
| Client.RetryIf | lib/CustomMySQL.js:132-135 | `retry_if` replaces the retry codes wholesale and changes nothing else |
| Client.RetryIfGovernsNextReply | lib/CustomMySQL.js:132-135 | the codes given to `retry_if` make the very next reply with such a code retryable |
| Client.UseMidFlightStopsRetrying | lib/CustomMySQL.js:88-89 | a `use` during a query clears the codes its wrapper reads, so the first reply seen after it ends the query |
| Client.On | lib/CustomMySQL.js:225-231 | `on` is forwarded exactly when the active profile holds a connection; it throws 'Key does not exist' with no active key |
| Client.OnAfterOpenOrAdd | lib/CustomMySQL.js:58-79 | `on` succeeds after `open` of a configuration with a non-empty key and after a pooled `add`. After an exclusive `add` on a client whose profile has no connection yet, it throws a TypeError |
| Client.Open | lib/CustomMySQL.js:150-169 | `open` makes the derived key active; a key without a connection becomes the pool `{config, is_pool: true}` with a connection; an already connected key only becomes active; no other profile or field changes |
| Client.OpenIdempotent | lib/CustomMySQL.js:159-163 | opening the same configuration twice leaves the client as opening it once |
| Client.EndTwiceThrows | lib/CustomMySQL.js:120-126 | ending an exclusive connection a second time throws |
| Client.SubmitQuery | lib/CustomMySQL.js:109-115 | after a successful submission a connection is current; it throws only when none was current and no profile is active; when it connects, exactly the active profile gains a connection and nothing else changes |
| Client.Dispatch | lib/CustomMySQL.js:217-219 | dispatch throws exactly when items exist and no key is active; otherwise item i is queried with `(query, items[i], _collector)`, and `_args` is left at the last item's value |
| Client.Async | lib/CustomMySQL.js:186-222 | `async` throws exactly when there are items and no active key, and otherwise issues one query per item |
| Client.BatchReportsLastItemArgs | lib/CustomMySQL.js:217-219 | while the client is left alone, every item of a batch is reported with the value announced for the last item, not its own |
| Legacy.New | CustomMySQL.js:7-11 | a fresh client has no profiles, no active key, a counter that is not yet a number, and 3 stored behind `max_retry`, which reads back as undefined |
| Legacy.SetMaxRetry | CustomMySQL.js:13-15 | the setter stores the value as given, falsy or not, and changes nothing else |
| Legacy.MaxRetryIsWriteOnly | CustomMySQL.js:9-15 | `max_retry` reads back as undefined whatever was set, only `_max_retry` holds the value, and no counter value equals the read |
| Legacy.Add | CustomMySQL.js:30-39 | `add` validates nothing, stores `{config}`, is pooled and connected exactly when `is_pool` is truthy, and leaves the active key and everything else alone |
| Legacy.Use | CustomMySQL.js:41-62 | `use` throws exactly for a key never added; otherwise it makes the key active, resets the shared counter to 0 and the codes to null, and connects the profile if it had no connection |
| Legacy.UseIdempotent | CustomMySQL.js:50-59 | using a key twice creates no second connection |
| Legacy.UseKeepsExistingConnection | CustomMySQL.js:33-36 | a pooled profile, or any profile already holding a connection, gets nothing new from `use` |
| Legacy.Args | CustomMySQL.js:21-28 | `args` throws exactly when no key is active |
| Legacy.RetryIf | CustomMySQL.js:117-120 | `retry_if` replaces the retry codes wholesale and changes nothing else |
| Legacy.RetryIfGovernsNextReply | CustomMySQL.js:78-90 | a code listed with `retry_if` bumps the shared counter on the next reply, and the driver's error is not handed to the callback. With the codes cleared, the wrapper forwards every reply untouched and leaves the counter alone |
| Legacy.Submit | CustomMySQL.js:95-102 | `query` throws exactly when no key is active or the active profile has no connection |
| Legacy.End | CustomMySQL.js:107-115 | `end` drops an exclusive profile's connection, keeps a pooled one, and throws exactly when no key is active or no connection is stored |
| Legacy.On | CustomMySQL.js:206-212 | `on` is forwarded exactly when the active profile holds a connection |
| Legacy.Open | CustomMySQL.js:125-160 | `open` makes the derived key active; a key without a connection becomes the pool `{config, is_pool: true}` with a connection; an already connected key only becomes active; the shared `retries` counter and the other profiles are untouched |
| Legacy.OnReply | CustomMySQL.js:77-90 | a reply bumps the client's shared counter exactly when it is retryable; the exhaustion marker is delivered exactly when the bumped counter equals the limit read; otherwise a retryable reply is re-issued exactly when a connection is reachable and raises when none is; a non-retryable reply is forwarded unchanged with the client's `_args` and the first argument |
| Legacy.Resume | CustomMySQL.js:77-90 | every re-issue sends the identical tuple, and the counter grows by the retryable replies consumed; the reply that ends the run reaches the callback unchanged when it is not retryable, and otherwise the callback gets `('Reached max retries', null)` |
| Legacy.Execute | CustomMySQL.js:64-105 | a query throws without sending anything when no connection is reachable; otherwise calls equal consumed replies, plus one while outstanding; a non-retryable final reply reaches the callback unchanged |
| Legacy.Replies | CustomMySQL.js:78-79 | replies to any mix of in-flight queries bump the one shared counter once per retryable reply and change nothing else |
| Legacy.Dispatch | CustomMySQL.js:195-201 | dispatch throws exactly when items exist and no connection is reachable; with no key it throws before changing anything, with a key but no connection after recording the first item's value |
| Legacy.Async | CustomMySQL.js:162-204 | `async` throws exactly when there are items and no connection is reachable, and otherwise issues one query per item |
| Legacy.ResumeDeliversClientArgs | CustomMySQL.js:77-90 | however many re-issues precede it, a delivery reports the `_args` of the client the query was sent from, and the query's first argument |
| Legacy.BatchReportsLastItemArgs | CustomMySQL.js:195-201 | while the client is left alone, every item of a batch is delivered with the value announced for the last item and with the batch's statement |
| Legacy.NeverReportsExhaustion | CustomMySQL.js:82-84 | as written, no query ever delivers the exhaustion marker |
| Legacy.ReissuesWithoutBound | CustomMySQL.js:78-87 | as written, every retryable reply leads to one more call, so n such replies make n + 1 calls whatever `max_retry` is |
| Legacy.FixedExhaustsAfterMax | CustomMySQL.js:82-86 | with the check reading `_max_retry = m`, a query starting at counter k < m makes m - k calls and then delivers the exhaustion marker |
| Legacy.OtherQueriesShortenBudget | CustomMySQL.js:79 | even with the check fixed, retryable replies to other queries use up the budget of a query that starts after them |

## Findings

| source | as written | input that shows it | evidently intended | confidence | as-written member | corrected member |
|---|---|---|---|---|---|---|
| CustomMySQL.js:82 | the exhaustion check compares `this.retries` with `this.max_retry`, an accessor with only a setter, which reads undefined | `use(key)`, `retry_if(['PROTOCOL_CONNECTION_LOST'])`, then a query whose every reply fails with that code: with `max_retry` 3, a fourth call follows the third failure | compare with `_max_retry` and deliver 'Reached max retries' once the counter reaches it | high, not executed | Legacy.ReissuesWithoutBound | Legacy.FixedExhaustsAfterMax |
| lib/CustomMySQL.js:84 | the guard `!this[key]` reads the client object itself, so every method and built-in property name passes | `use('toString')` on a fresh client does not throw and leaves `_key` naming no profile | throw 'Key does not exist' for any key never added | high, not executed | Client.UseAcceptsBuiltinName | Client.UseRejectsUnknownKey |

## Left out

- The `mysql` driver. `createPool`, `createConnection`, `connect`, `connection.query`, `escape` and `escapeId` are not modelled. They become scripted replies and connection flags.
- A driver that calls one callback twice, and a result passed alongside an error. An erroring reply is modelled with an undefined result.
- Client.SubmitQuery: `current_connection` is a flag, not a handle, so the model does not record whose connection is current. The source queries `current_connection` whatever `_key` holds (lib/Query.js:72, lib/CustomMySQL.js:110-112). After `add('a', cfgA, true); add('b', cfgB)`, or after `use('b')` while a's pool is current, queries run on a's connection although `b` is active. The model says only that some connection is current.
- lib/Connection.js and lib/Transaction.js are not part of this model. Because of this, `transaction()` and transaction scoping are not modelled. What `new Connection(this)` does is assumed, as stated above.
- Logging and events. This covers `set_logger`, `_logger`, `console.log`, the `'close'`/`'error'` handlers, and `open`'s pool re-creation on close. None of them changes the modelled state except pool re-creation, and that needs the driver.
- The older client's `this.pending`. It is written and never read.
- What happens to an exception thrown inside a driver callback. A re-issue that finds no connection ends the model's run as `Raised`.
- JavaScript numbers that are not integers, NaN as a config value, and `String(key)` for non-string keys. `use` and the older `add` take keys as strings.
- Details of `for..in` and of `retry_if`'s argument:
  - the rule that integer-like keys are enumerated first (object properties are taken in the given order);
  - array holes;
  - a `retry_if` argument that is not an array (a string would be searched with `indexOf`).
- Batch.EntryOf: calling the collector and `fn` is recorded symbolically. A truthy collector that is not a function, or any `fn` that is not a function, would throw on completion; this includes the undefined `fn` of a two-argument `async(query, args)`. `Collect` records a firing there instead.
- Batch.Collect: `fn` receives a reference to `results`. Pushes by stray completions after `fn` fired would show through it. The model hands `fn` a copy.
- Client.UseAsWritten: only the client's fixed property names are modelled. Dynamic fields also pass the guard once set: `retryable_errors`, `_key`, `_args`, `current_connection` and `escapeId`. A profile added under a method's name would shadow that method.
- Client.SubmitQuery: with a built-in name active, what `new Connection(this)` does is not modelled. lib/Connection.js is not part of this model, and the model takes it to throw.
- Legacy.Use: the older client's guard `!this[key]` (CustomMySQL.js:42) is the same as the current client's, so built-in names such as `toString` pass it there too. `use` would then write a `connection` onto that method. The model's `use` accepts registered keys only, so it throws for those names where the source does not.
- Legacy.Resume: the older wrapper is written into `arguments` itself (CustomMySQL.js:67, 77), so each re-issue at line 86 passes the previous wrapper as the callback, and the wrappers nest one level per retry. Each nested wrapper tests the same error against the same codes, so deliveries and the counter are as modelled. "The identical tuple" holds at the model's level, where the callback slot is `Wrapped`.

=== FILE: batch.dfy ===
/**
 * The fan-out aggregator `async(query, args, [async_args], [collector], fn)`,
 * the same in both clients: which argument means what for each arity, the
 * value each item is dispatched with, and the countdown that collects the
 * items' callbacks and fires `fn`.
 *
 * Real interleaving is replaced by the order in which the items' callbacks
 * run: the k-th completion is the k-th element of that order.
 */
module Batch {
  import opened Js
  import Query

  /** The parameters after arity normalisation. */
  datatype AsyncCall = AsyncCall(query: Value, items: seq<Value>, asyncArgs: Value, collector: Value, fn: Value)

  /** One element of `results`: the `{err, result, args}` record, or whatever
      the caller's collector returned for those three values. */
  datatype Entry =
    | Record(err: Option<Query.QueryError>, result: Value, args: Option<seq<Value>>)
    | Collected(collector: Value, err: Option<Query.QueryError>, result: Value, args: Option<seq<Value>>)

  /** The single argument `fn` receives: `async_args || results`. */
  datatype Payload = AsyncArgs(v: Value) | Results(entries: seq<Entry>)

  /** The closure state: the countdown `len`, `results`, and every call of `fn` so far. */
  datatype Countdown = Countdown(pending: int, results: seq<Entry>, fired: seq<Payload>)

  /** `arguments[2 + i]`, undefined when not passed. */
  function ArgAt(rest: seq<Value>, i: nat): Value {
    if i < |rest| then rest[i] else Undefined
  }

  /** The arguments after `args`, as passed: with four arguments in all they
      are `(collector, fn)`, with three just `(fn)`, otherwise positional. */
  function Normalise(query: Value, items: seq<Value>, rest: seq<Value>): (c: AsyncCall)
    ensures c.query == query && c.items == items
    ensures 1 <= |rest| <= 3 ==> c.fn == rest[|rest| - 1]
    ensures 2 <= |rest| <= 3 ==> c.collector == rest[|rest| - 2]
    ensures |rest| == 1 ==> c.collector == Undefined
    ensures |rest| < 3 ==> !Truthy(c.asyncArgs)
    ensures |rest| >= 3 ==> c.asyncArgs == rest[0]
  {
    if |rest| == 2 then AsyncCall(query, items, Null, rest[0], rest[1])
    else if |rest| == 1 then AsyncCall(query, items, Null, Undefined, rest[0])
    else AsyncCall(query, items, ArgAt(rest, 0), ArgAt(rest, 1), ArgAt(rest, 2))
  }

  /** What item `i` is announced with through `args(...)`: its own entry of
      `async_args` when that exists, else the item itself. */
  function ItemArg(call: AsyncCall, i: nat): (v: Value)
    requires i < |call.items|
    ensures !Truthy(call.asyncArgs) ==> v == call.items[i]
    ensures call.asyncArgs.Arr? && i < |call.asyncArgs.items| ==> v == call.asyncArgs.items[i]
    ensures call.asyncArgs.Arr? && i >= |call.asyncArgs.items| ==> v == call.items[i]
    ensures Truthy(call.asyncArgs) && OwnIndex(call.asyncArgs, i).Some? ==> v == OwnIndex(call.asyncArgs, i).value
    ensures OwnIndex(call.asyncArgs, i).None? ==> v == call.items[i]
  {
    if Truthy(call.asyncArgs) && OwnIndex(call.asyncArgs, i).Some? then OwnIndex(call.asyncArgs, i).value
    else call.items[i]
  }

  /** The short forms mean what the long form with the skipped parameters
      spelled out means: `(collector, fn)` is `(null, collector, fn)` and
      `(fn)` is `(null, undefined, fn)`. */
  lemma NormaliseShortForms(query: Value, items: seq<Value>, c: Value, f: Value)
    ensures Normalise(query, items, [c, f]) == Normalise(query, items, [Null, c, f])
    ensures Normalise(query, items, [f]) == Normalise(query, items, [Null, Undefined, f])
    ensures Normalise(query, items, [f]).fn == f && !Truthy(Normalise(query, items, [f]).collector)
  {
  }

  /** The `_collector` closure every item's query is given as callback. */
  const CollectorFn: Value := Fun("_collector")

  /** `query(query, arg, _collector)`: the tuple item `i` is queried with. */
  function ItemQuery(call: AsyncCall, i: nat): (t: seq<Value>)
    requires i < |call.items|
    ensures |t| == 3 && t[0] == call.query && t[1] == call.items[i] && t[2] == CollectorFn
    ensures Query.CallbackIndex(t) == Some(2)
  {
    var t := [call.query, call.items[i], CollectorFn];
    Query.CallbackIsLastFunction(t, 2);
    t
  }

  /** The entry `_collector` pushes for one delivery. */
  function EntryOf(call: AsyncCall, d: Query.Delivery): Entry {
    if Truthy(call.collector) then Collected(call.collector, d.err, d.result, d.args)
    else Record(d.err, d.result, d.args)
  }

  function PayloadOf(call: AsyncCall, results: seq<Entry>): Payload {
    if Truthy(call.asyncArgs) then AsyncArgs(call.asyncArgs) else Results(results)
  }

  /** One run of `_collector`: push, count down, and call `fn` when the count reaches zero. */
  function Complete(call: AsyncCall, s: Countdown, d: Query.Delivery): (r: Countdown)
    ensures r.pending == s.pending - 1
    ensures r.results == s.results + [EntryOf(call, d)]
    ensures r.fired == if s.pending == 1 then s.fired + [PayloadOf(call, r.results)] else s.fired
  {
    var results := s.results + [EntryOf(call, d)];
    var pending := s.pending - 1;
    Countdown(pending, results, if pending == 0 then s.fired + [PayloadOf(call, results)] else s.fired)
  }

  /** The closure state after the given completions, starting from `len = args.length`. */
  function Collect(call: AsyncCall, done: seq<Query.Delivery>): (r: Countdown)
    ensures r.pending == |call.items| - |done|
    ensures |r.results| == |done|
    ensures forall k :: 0 <= k < |done| ==> r.results[k] == EntryOf(call, done[k])
    ensures |r.fired| == if 1 <= |call.items| <= |done| then 1 else 0
    ensures |r.fired| == 1 ==> r.fired[0] == PayloadOf(call, r.results[..|call.items|])
  {
    if |done| == 0 then Countdown(|call.items|, [], [])
    else
      var before := Collect(call, done[..|done| - 1]);
      var r := Complete(call, before, done[|done| - 1]);
      if |done| == |call.items| then
        assert r.results[..|call.items|] == r.results;
        r
      else if |done| > |call.items| then
        assert r.results[..|call.items|] == before.results[..|call.items|];
        r
      else r
  }

  /** Each item's delivery, taken in completion order. */
  function InCompletionOrder(outcomes: seq<Query.Delivery>, order: seq<nat>): (r: seq<Query.Delivery>)
    requires forall k :: 0 <= k < |order| ==> order[k] < |outcomes|
    ensures |r| == |order|
    ensures forall k :: 0 <= k < |order| ==> r[k] == outcomes[order[k]]
  {
    seq(|order|, k requires 0 <= k < |order| => outcomes[order[k]])
  }

  /** `order` lists every item index below `n` exactly once. */
  ghost predicate IsPermutation(order: seq<nat>, n: nat) {
    && |order| == n
    && (forall k :: 0 <= k < |order| ==> order[k] < n)
    && (forall k, l :: 0 <= k < l < |order| ==> order[k] != order[l])
  }

  // ---------------------------------------------------------------------
  // Properties of the countdown

  /** `fn` never fires before every item has completed. */
  lemma SilentUntilAllComplete(call: AsyncCall, done: seq<Query.Delivery>)
    requires |done| < |call.items|
    ensures Collect(call, done).fired == []
  {
  }

  /** With no items nothing ever completes through the countdown, and even
      stray completions drive it below zero without calling `fn`. */
  lemma EmptyBatchNeverFires(call: AsyncCall, done: seq<Query.Delivery>)
    requires |call.items| == 0
    ensures Collect(call, done).fired == []
  {
  }

  /** With N >= 1 items completing once each in a given order, `fn` fires
      exactly once, with `async_args` when that is truthy and otherwise with
      every item's entry in completion order. */
  lemma FiresOnceInCompletionOrder(call: AsyncCall, outcomes: seq<Query.Delivery>, order: seq<nat>)
    requires |outcomes| == |call.items| >= 1
    requires IsPermutation(order, |call.items|)
    ensures var r := Collect(call, InCompletionOrder(outcomes, order));
            && r.pending == 0
            && |r.fired| == 1
            && (Truthy(call.asyncArgs) ==> r.fired[0] == AsyncArgs(call.asyncArgs))
            && (!Truthy(call.asyncArgs) ==>
                  r.fired[0] == Results(seq(|order|, k requires 0 <= k < |order| => EntryOf(call, outcomes[order[k]]))))
  {
    var done := InCompletionOrder(outcomes, order);
    var r := Collect(call, done);
    assert r.results[..|call.items|] == r.results;
  }

  /** Every item's entry appears in the results, at the position where it completed. */
  lemma EveryItemCollected(call: AsyncCall, outcomes: seq<Query.Delivery>, order: seq<nat>, i: nat)
    requires |outcomes| == |call.items|
    requires IsPermutation(order, |call.items|)
    requires i < |call.items|
    ensures exists k :: 0 <= k < |order| && order[k] == i
                        && Collect(call, InCompletionOrder(outcomes, order)).results[k] == EntryOf(call, outcomes[i])
  {
    PermutationCovers(order, |call.items|, i);
  }

  /** The indices below `n`. */
  function Below(n: nat): (r: set<nat>)
    ensures forall j: nat :: j in r <==> j < n
    ensures |r| == n
  {
    if n == 0 then {} else Below(n - 1) + {n - 1}
  }

  /** A permutation of 0..n-1 contains each index. */
  lemma PermutationCovers(order: seq<nat>, n: nat, i: nat)
    requires IsPermutation(order, n) && i < n
    ensures i in order
  {
    var seen := set k | 0 <= k < |order| :: order[k];
    if i !in order {
      assert seen <= Below(n) - {i};
      InjectiveImageCard(order);
      SubsetCard(seen, Below(n) - {i});
      assert false;
    }
  }

  lemma {:induction false} InjectiveImageCard(order: seq<nat>)
    requires forall k, l :: 0 <= k < l < |order| ==> order[k] != order[l]
    ensures |set k | 0 <= k < |order| :: order[k]| == |order|
    decreases |order|
  {
    if |order| > 0 {
      var init := order[..|order| - 1];
      InjectiveImageCard(init);
      var last := order[|order| - 1];
      assert (set k | 0 <= k < |order| :: order[k]) == (set k | 0 <= k < |init| :: init[k]) + {last};
      assert last !in (set k | 0 <= k < |init| :: init[k]);
    }
  }

  lemma {:induction false} SubsetCard(a: set<nat>, b: set<nat>)
    requires a <= b
    ensures |a| <= |b|
    decreases |b|
  {
    if b != {} {
      var x :| x in b;
      SubsetCard(a - {x}, b - {x});
    }
  }

  /** The callbacks of the fan-out as a loop over the completion order,
      running one `Complete` step per completion. */
  method FanOut(call: AsyncCall, outcomes: seq<Query.Delivery>, order: seq<nat>)
    returns (results: seq<Entry>, fired: seq<Payload>)
    requires |outcomes| == |call.items|
    requires forall k :: 0 <= k < |order| ==> order[k] < |outcomes|
    ensures |results| == |order|
    ensures forall k :: 0 <= k < |order| ==> results[k] == EntryOf(call, outcomes[order[k]])
    ensures |fired| == if 1 <= |call.items| <= |order| then 1 else 0
    ensures results == Collect(call, InCompletionOrder(outcomes, order)).results
    ensures fired == Collect(call, InCompletionOrder(outcomes, order)).fired
  {
    var n := |call.items|;
    var st := Countdown(n, [], []);
    var k := 0;
    while k < |order|
      invariant 0 <= k <= |order|
      invariant st.pending == n - k
      invariant |st.results| == k
      invariant forall j :: 0 <= j < k ==> st.results[j] == EntryOf(call, outcomes[order[j]])
      invariant |st.fired| == if 1 <= n <= k then 1 else 0
      invariant |st.fired| == 1 ==> st.fired[0] == PayloadOf(call, st.results[..n])
    {
      var before := st.results;
      st := Complete(call, st, outcomes[order[k]]);
      if st.pending == 0 {
        assert st.results[..n] == st.results;
      } else if |st.fired| == 1 {
        assert st.results[..n] == before[..n];
      }
      k := k + 1;
    }
    results, fired := st.results, st.fired;
    var c := Collect(call, InCompletionOrder(outcomes, order));
    assert results == c.results;
  }
}

=== FILE: client.dfy ===
/**
 * The current client (lib/CustomMySQL.js): the profile registry, the
 * connection lifecycle, the retry settings the query wrapper reads, and the
 * dispatch half of `async`.
 *
 * A thrown error is `Threw(error, state)`, where `state` is the client as
 * the throw left it: `use` assigns two fields before the `end()` it calls
 * can throw.
 */
module Client {
  import opened Js
  import opened Registry
  import Query
  import Batch

  datatype State = State(
    profiles: map<string, Profile>,  // this[key] for every added or opened key
    key: Option<string>,             // _key
    currentConnection: bool,         // current_connection is set
    retryable: Option<seq<string>>,  // retryable_errors
    maxRetry: Value,                 // _max_retry
    args: Option<seq<Value>>)        // _args

  datatype Transition = Done(state: State) | Threw(error: Error, state: State)

  /** The constructor: no profiles, no active key, no connection, a retry
      limit of 3. */
  function New(): (r: State)
    ensures Valid(r) && r.profiles == map[] && Active(r.key).None? && !r.currentConnection
    ensures r.maxRetry == Num(3) && r.retryable.None?
  {
    State(map[], None, false, None, Num(3), None)
  }

  /** The active key, when set, names a registered profile. */
  ghost predicate Valid(s: State) {
    s.key.Some? ==> s.key.value in s.profiles
  }

  /** What the query wrapper reads from this client when a reply arrives. */
  function ViewOf(s: State): Query.ClientView {
    Query.ClientView(s.retryable, s.maxRetry, s.args, s.currentConnection)
  }

  /** `set_max_retry(max)`: a falsy limit falls back to 3. */
  function SetMaxRetry(s: State, max: Value): (r: State)
    ensures Truthy(r.maxRetry) && r.maxRetry != Num(0)
    ensures Truthy(max) ==> r.maxRetry == max
    ensures !Truthy(max) ==> r.maxRetry == Num(3)
    ensures r == s.(maxRetry := r.maxRetry)
  {
    s.(maxRetry := if Truthy(max) then max else Num(3))
  }

  /** `new Connection(this)`. lib/Connection.js is not part of this model:
      the connection is taken to be stored in the active profile and in
      `current_connection`, and reading the profile of an unset key throws. */
  function Connect(s: State): (r: Transition)
    ensures r.Threw? <==> Active(s.key).None? || Active(s.key).value !in s.profiles
    ensures r.Threw? ==> r == Threw(TypeError, s)
    ensures r.Done? ==> r.state.currentConnection
    ensures r.Done? ==> r.state.profiles.Keys == s.profiles.Keys
    ensures r.Done? ==> r.state.profiles[s.key.value].hasConnection
    ensures r.Done? ==> r.state == s.(currentConnection := true, profiles := r.state.profiles)
    ensures r.Done? ==> r.state.profiles[s.key.value] == s.profiles[s.key.value].(hasConnection := true)
    ensures r.Done? ==> forall k :: k in s.profiles && k != s.key.value ==> r.state.profiles[k] == s.profiles[k]
  {
    match Active(s.key)
    case None => Threw(TypeError, s)
    case Some(k) =>
      if k !in s.profiles then Threw(TypeError, s)
      else Done(s.(currentConnection := true, profiles := s.profiles[k := s.profiles[k].(hasConnection := true)]))
  }

  /** `add(key, config, is_pool)`: validate, register, make active, and
      connect at once when pooled. */
  function Add(s: State, key: Value, config: Value, isPool: Value): (r: Transition)
    ensures r.Threw? <==> !(Truthy(key) && Truthy(config) && key.Str? && IsObjectType(config))
    ensures r.Threw? ==> r.state == s
    ensures (!Truthy(key) || !Truthy(config)) ==> r.Threw? && r.error == KeyOrConfigMissing
    ensures Truthy(key) && Truthy(config) && !key.Str? ==> r.Threw? && r.error == KeyNotString
    ensures Truthy(key) && Truthy(config) && key.Str? && !IsObjectType(config) ==>
              r.Threw? && r.error == ConfigNotObject
    ensures r.Done? ==>
              && r.state.key == Some(key.s)
              && r.state.profiles == s.profiles[key.s := Profile(config, Truthy(isPool), Truthy(isPool))]
              && r.state.currentConnection == (s.currentConnection || Truthy(isPool))
              && r.state.retryable == s.retryable && r.state.args == s.args && r.state.maxRetry == s.maxRetry
    ensures Valid(s) ==> Valid(r.state)
  {
    if !Truthy(key) || !Truthy(config) then Threw(KeyOrConfigMissing, s)
    else if !key.Str? then Threw(KeyNotString, s)
    else if !IsObjectType(config) then Threw(ConfigNotObject, s)
    else
      var s' := s.(key := Some(key.s), profiles := s.profiles[key.s := Profile(config, Truthy(isPool), false)]);
      if Truthy(isPool) then Connect(s') else Done(s')
  }

  /** `end()`: close the active exclusive connection; a pool stays open. */
  function End(s: State): (r: Transition)
    ensures r.Threw? ==> r.state == s
    ensures Valid(s) ==>
              (r.Threw? <==> Active(s.key).None? || !s.profiles[Active(s.key).value].hasConnection)
    ensures r.Done? ==> Active(s.key).Some? && Active(s.key).value in s.profiles
    ensures r.Done? && !s.profiles[s.key.value].isPool ==>
              && !r.state.currentConnection
              && r.state.profiles == s.profiles[s.key.value := s.profiles[s.key.value].(hasConnection := false)]
              && r.state == s.(currentConnection := false, profiles := r.state.profiles)
    ensures r.Done? && s.profiles[s.key.value].isPool ==> r.state == s
    ensures Active(s.key).Some? && Active(s.key).value !in s.profiles ==>
              r == Threw(if Active(s.key).value in BuiltinNames then AddConnectionFirst else TypeError, s)
    ensures Valid(s) ==> Valid(r.state)
  {
    match EndDecision(s.profiles, s.key, BuiltinNames)
    case Close(k) =>
      Done(s.(currentConnection := false, profiles := s.profiles[k := s.profiles[k].(hasConnection := false)]))
    case Keep => Done(s)
    case Fail(e) => Threw(e, s)
  }

  /** `use(key)`: switch the active key, drop the retry codes, then `end()`
      when a connection is current — on the profile just selected. */
  function Use(s: State, key: string): (r: Transition)
    ensures key !in s.profiles ==> r == Threw(KeyDoesNotExist, s)
    ensures key in s.profiles ==> r.state.key == Some(key) && r.state.retryable.None?
    ensures key in s.profiles && !s.currentConnection ==> r == Done(s.(key := Some(key), retryable := None))
    ensures r.state.maxRetry == s.maxRetry && r.state.args == s.args
    ensures Valid(s) ==> Valid(r.state)
  {
    if key !in s.profiles then Threw(KeyDoesNotExist, s)
    else
      var s' := s.(key := Some(key), retryable := None);
      if s'.currentConnection then End(s') else Done(s')
  }

  /** `args(...)`: remember the values reported to every callback from now on. */
  function Args(s: State, values: seq<Value>): (r: Transition)
    ensures r.Threw? <==> Active(s.key).None?
    ensures r.Threw? ==> r == Threw(KeyDoesNotExist, s)
    ensures r.Done? ==> r.state == s.(args := Some(values))
  {
    if Active(s.key).None? then Threw(KeyDoesNotExist, s) else Done(s.(args := Some(values)))
  }

  /** `retry_if(codes)`: replace the retryable codes wholesale. */
  function RetryIf(s: State, codes: Option<seq<string>>): (r: State)
    ensures r.retryable == codes
    ensures r == s.(retryable := codes)
  {
    s.(retryable := codes)
  }

  /** `on(event, cb)`: forwarded to the active profile's handle, which must exist. */
  function On(s: State): (r: Transition)
    ensures r.state == s
    ensures r.Done? <==> Active(s.key).Some? && Active(s.key).value in s.profiles
                         && s.profiles[Active(s.key).value].hasConnection
    ensures Active(s.key).None? ==> r == Threw(KeyDoesNotExist, s)
  {
    match Active(s.key)
    case None => Threw(KeyDoesNotExist, s)
    case Some(k) => if k in s.profiles && s.profiles[k].hasConnection then Done(s) else Threw(TypeError, s)
  }

  /** `open(config)`: make the derived key active and give it a pool unless
      it already holds a connection. */
  function Open(s: State, config: Value): (r: State)
    ensures r.key == Some(ConfigKey(config))
    ensures ConfigKey(config) in r.profiles && r.profiles[ConfigKey(config)].hasConnection
    ensures ConfigKey(config) in s.profiles && s.profiles[ConfigKey(config)].hasConnection ==>
              r == s.(key := Some(ConfigKey(config)))
    ensures r.currentConnection == s.currentConnection
    ensures r == s.(key := r.key, profiles := OpenProfiles(s.profiles, config))
    ensures Valid(r)
  {
    s.(key := Some(ConfigKey(config)), profiles := OpenProfiles(s.profiles, config))
  }

  /** `query(...)`: connect first when no connection is current; the
      `Query` then issues on `current_connection`. */
  function SubmitQuery(s: State): (r: Transition)
    ensures r.Done? ==> r.state.currentConnection
    ensures r.Threw? <==> !s.currentConnection && (Active(s.key).None? || Active(s.key).value !in s.profiles)
    ensures s.currentConnection ==> r == Done(s)
    ensures !s.currentConnection && r.Done? ==>
              r.state == s.(currentConnection := true,
                            profiles := s.profiles[s.key.value := s.profiles[s.key.value].(hasConnection := true)])
    ensures Valid(s) ==> Valid(r.state)
  {
    if s.currentConnection then Done(s) else Connect(s)
  }

  // ---------------------------------------------------------------------
  // Dispatch of `async`

  /** The first `n` iterations of `args.forEach(...)`: announce the item's
      value through `args(...)`, then submit its query. */
  function Dispatch(s: State, call: Batch.AsyncCall, n: nat): (r: (Transition, seq<seq<Value>>))
    requires n <= |call.items|
    ensures Valid(s) ==> (r.0.Threw? <==> n >= 1 && Active(s.key).None?)
    ensures Valid(s) && r.0.Threw? ==> r.0 == Threw(KeyDoesNotExist, s) && r.1 == []
    ensures r.0.Done? ==> |r.1| == n && forall i :: 0 <= i < n ==> r.1[i] == Batch.ItemQuery(call, i)
    ensures r.0.Done? && n >= 1 ==>
              r.0.state.args == Some([Batch.ItemArg(call, n - 1)]) && r.0.state.currentConnection
    ensures r.0.Done? ==> r.0.state.retryable == s.retryable && r.0.state.maxRetry == s.maxRetry
                          && r.0.state.key == s.key
    ensures Valid(s) ==> Valid(r.0.state)
  {
    if n == 0 then (Done(s), [])
    else
      var (t, calls) := Dispatch(s, call, n - 1);
      if t.Threw? then (t, calls)
      else
        match Args(t.state, [Batch.ItemArg(call, n - 1)])
        case Threw(e, s1) => (Threw(e, s1), calls)
        case Done(s1) =>
          match SubmitQuery(s1)
          case Threw(e, s2) => (Threw(e, s2), calls)
          case Done(s2) => (Done(s2), calls + [Batch.ItemQuery(call, n - 1)])
  }

  /** `async(query, args, ...rest)`: normalise, then dispatch every item. */
  function Async(s: State, query: Value, items: seq<Value>, rest: seq<Value>): (r: (Transition, seq<seq<Value>>))
    ensures Valid(s) ==> (r.0.Threw? <==> |items| >= 1 && Active(s.key).None?)
    ensures r.0.Done? ==> |r.1| == |items|
  {
    Dispatch(s, Batch.Normalise(query, items, rest), |items|)
  }

  // ---------------------------------------------------------------------
  // Properties of the registry and lifecycle

  /** `use` ends the connection of the profile it selects, never the one it
      leaves: every other profile keeps its connection, and an exclusive
      selected profile without a connection makes `use` throw after switching. */
  lemma UseEndsSelectedProfile(s: State, key: string)
    requires key in s.profiles && key != "" && s.currentConnection
    ensures forall k :: k in s.profiles && k != key ==> Use(s, key).state.profiles[k] == s.profiles[k]
    ensures !s.profiles[key].isPool && s.profiles[key].hasConnection ==>
              Use(s, key) == Done(s.(key := Some(key), retryable := None, currentConnection := false,
                                     profiles := s.profiles[key := s.profiles[key].(hasConnection := false)]))
    ensures !s.profiles[key].hasConnection ==>
              Use(s, key) == Threw(AddConnectionFirst, s.(key := Some(key), retryable := None))
    ensures s.profiles[key].isPool && s.profiles[key].hasConnection ==>
              Use(s, key) == Done(s.(key := Some(key), retryable := None))
  {
  }

  /** Ending an exclusive connection twice fails the second time. */
  lemma EndTwiceThrows(s: State)
    requires Valid(s) && End(s).Done? && !s.profiles[s.key.value].isPool
    ensures End(End(s).state) == Threw(AddConnectionFirst, End(s).state)
  {
  }

  /** Opening the same configuration twice creates one pool. */
  lemma OpenIdempotent(s: State, config: Value)
    ensures Open(Open(s, config), config) == Open(s, config)
  {
    Registry.OpenIdempotent(s.profiles, config);
  }

  /** The retry codes set with `retry_if` decide the very next reply: a
      listed error code is retried. */
  lemma RetryIfGovernsNextReply(s: State, codes: seq<string>, code: string, args: seq<Value>)
    requires code in codes
    ensures Query.Retryable(Query.Attempt(Query.Err(code), ViewOf(RetryIf(s, Some(codes)))))
  {
  }

  /** A `use` while a query is in flight clears the codes its wrapper reads:
      the first reply seen after it ends the query. */
  lemma UseMidFlightStopsRetrying(s: State, key: string, args: seq<Value>, attempts: seq<Query.Attempt>, j: nat)
    requires key in s.profiles
    requires Query.CallbackIndex(args).Some?
    requires j < |attempts| && attempts[j].view == ViewOf(Use(s, key).state)
    ensures !Query.Execute(args, attempts).outcome.Pending?
    ensures Query.Execute(args, attempts).consumed <= j + 1
  {
    Query.ClearedPolicyStopsRetrying(args, attempts, j);
  }

  /** The client's default limit of 3 ends a persistently failing query after
      three calls with the exhaustion marker. */
  lemma DefaultLimitIsThree(args: seq<Value>, attempts: seq<Query.Attempt>, codes: seq<string>)
    requires Query.CallbackIndex(args).Some?
    requires |attempts| >= 3
    requires forall i :: 0 <= i < |attempts| ==>
               attempts[i].view == ViewOf(RetryIf(New().(currentConnection := true), Some(codes)))
               && attempts[i].reply.Err? && attempts[i].reply.code in codes
    ensures |Query.Execute(args, attempts).calls| == 3
    ensures Query.Execute(args, attempts).outcome.Delivered?
    ensures Query.Execute(args, attempts).outcome.d.err == Some(Query.RetriesExhausted)
  {
    Query.ExhaustsAfterMaxRetry(args, attempts, 3);
  }

  /** The limit passed to `set_max_retry` ends a persistently failing query:
      after v calls for a positive integer v, after 3 calls for a falsy v. */
  lemma SetMaxRetryBoundsCalls(s: State, v: Value, args: seq<Value>, attempts: seq<Query.Attempt>,
                               codes: seq<string>, m: nat)
    requires Query.CallbackIndex(args).Some? && s.currentConnection
    requires m == (if v.Num? && v.n >= 1 then v.n else 3)
    requires !Truthy(v) || (v.Num? && v.n >= 1)
    requires m <= |attempts|
    requires forall i :: 0 <= i < |attempts| ==>
               attempts[i].view == ViewOf(RetryIf(SetMaxRetry(s, v), Some(codes)))
               && attempts[i].reply.Err? && attempts[i].reply.code in codes
    ensures |Query.Execute(args, attempts).calls| == m
    ensures Query.Execute(args, attempts).outcome.Delivered?
    ensures Query.Execute(args, attempts).outcome.d.err == Some(Query.RetriesExhausted)
  {
    Query.ExhaustsAfterMaxRetry(args, attempts, m);
  }

  /** A truthy limit that is not a positive integer (a string, a negative
      number) is stored as given and never equals the counter: the query is
      re-issued on every retryable reply. */
  lemma SetMaxRetryUnreachable(s: State, v: Value, args: seq<Value>, attempts: seq<Query.Attempt>,
                               codes: seq<string>)
    requires Query.CallbackIndex(args).Some? && s.currentConnection
    requires Truthy(v) && !(v.Num? && v.n >= 1)
    requires forall i :: 0 <= i < |attempts| ==>
               attempts[i].view == ViewOf(RetryIf(SetMaxRetry(s, v), Some(codes)))
               && attempts[i].reply.Err? && attempts[i].reply.code in codes
    ensures Query.Execute(args, attempts).outcome.Pending?
    ensures |Query.Execute(args, attempts).calls| == |attempts| + 1
  {
    Query.UnreachableLimitNeverStops(args, attempts);
  }

  /** `on` reaches a handle after `open` and after a pooled `add`; after an
      exclusive `add` on a client with no connection yet, it has none. */
  lemma OnAfterOpenOrAdd(s: State, config: Value, key: Value, isPool: Value)
    ensures ConfigKey(config) != "" ==> On(Open(s, config)) == Done(Open(s, config))
    ensures Add(s, key, config, isPool).Done? && Truthy(isPool) ==>
              On(Add(s, key, config, isPool).state).Done?
    ensures Add(s, key, config, isPool).Done? && !Truthy(isPool) ==>
              On(Add(s, key, config, isPool).state) == Threw(TypeError, Add(s, key, config, isPool).state)
  {
  }

  /** The wrapper reports `_args` as it is when the reply arrives, and every
      dispatch overwrites it: while the client is left alone, every item of a
      batch reports the value announced for the LAST item. */
  lemma BatchReportsLastItemArgs(s: State, query: Value, items: seq<Value>, rest: seq<Value>,
                                 i: nat, attempts: seq<Query.Attempt>)
    requires Async(s, query, items, rest).0.Done?
    requires i < |items|
    requires forall j :: 0 <= j < |attempts| ==> attempts[j].view == ViewOf(Async(s, query, items, rest).0.state)
    ensures var run := Query.Execute(Async(s, query, items, rest).1[i], attempts);
            run.outcome.Delivered? ==>
              run.outcome.d.args == Some([Batch.ItemArg(Batch.Normalise(query, items, rest), |items| - 1)])
  {
  }

  // ---------------------------------------------------------------------
  // The `use` guard as written

  /** Names under which `this[name]` is a non-null value on every client:
      the constructor's own fields, the class's methods and the methods
      every object inherits from `Object.prototype`. */
  const BuiltinNames: set<string> := {
    "escape", "_logger", "_max_retry",
    "set_logger", "set_max_retry", "add", "use", "args", "query", "end", "retry_if",
    "transaction", "open", "async", "on", "constructor",
    "toString", "toLocaleString", "valueOf", "hasOwnProperty", "isPrototypeOf",
    "propertyIsEnumerable", "__proto__",
    "__defineGetter__", "__defineSetter__", "__lookupGetter__", "__lookupSetter__"}

  /** `use(key)` with its guard `!this[key]` read on the client object itself:
      a built-in name passes, becomes the active key, and the `end()` that
      follows finds no connection on it. */
  function UseAsWritten(s: State, key: string): (r: Transition)
    ensures key in s.profiles ==> r == Use(s, key)
    ensures key !in s.profiles && key !in BuiltinNames ==> r == Threw(KeyDoesNotExist, s)
    ensures key !in s.profiles && key in BuiltinNames ==>
              && r.state == s.(key := Some(key), retryable := None)
              && (r.Threw? <==> s.currentConnection)
              && (r.Threw? ==> r.error == AddConnectionFirst)
  {
    if key !in s.profiles && key !in BuiltinNames then Threw(KeyDoesNotExist, s)
    else
      var s' := s.(key := Some(key), retryable := None);
      if s'.currentConnection then End(s') else Done(s')
  }

  /** On a fresh client, `use('toString')` succeeds as written: the client
      then has an active key that names no profile, and `args` accepts it. */
  lemma UseAcceptsBuiltinName()
    ensures UseAsWritten(New(), "toString") == Done(New().(key := Some("toString")))
    ensures !Valid(UseAsWritten(New(), "toString").state)
    ensures Args(UseAsWritten(New(), "toString").state, []).Done?
    ensures Use(New(), "toString") == Threw(KeyDoesNotExist, New())
    ensures UseAsWritten(New(), "__lookupGetter__").Done?
    ensures End(UseAsWritten(New(), "toString").state)
         == Threw(AddConnectionFirst, UseAsWritten(New(), "toString").state)
  {
  }

  /** The guard as intended: an unknown key throws and leaves the client as
      it was, and the registry invariant survives every `use`. */
  lemma UseRejectsUnknownKey(s: State, key: string)
    requires Valid(s)
    ensures key !in s.profiles <==> Use(s, key) == Threw(KeyDoesNotExist, s)
    ensures Valid(Use(s, key).state)
  {
  }
}

=== FILE: js.dfy ===
/**
 * The slice of JavaScript's value model that the client inspects: truthiness
 * (`!x`), `typeof`, string conversion (`'' + x`), `for..in` enumeration and
 * `hasOwnProperty(index)`. Numbers are integers only; functions are
 * identified by their source text, which is also what `String(f)` yields.
 */
module Js {

  datatype Option<+T> = None | Some(value: T)

  datatype Value =
    | Undefined
    | Null
    | Bool(b: bool)
    | Num(n: int)
    | Str(s: string)
    | Arr(items: seq<Value>)
    | Obj(fields: seq<Field>)  // property names are taken to be distinct, as in any JS object
    | Fun(source: string)

  /** One own enumerable property, in enumeration order. */
  datatype Field = Field(name: string, val: Value)

  /** `!v` is false: every value except the five falsy ones. */
  predicate Truthy(v: Value) {
    !(v.Undefined? || v.Null? || v == Bool(false) || v == Num(0) || v == Str(""))
  }

  /** `typeof v === 'object'` (null included). */
  predicate IsObjectType(v: Value) {
    v.Null? || v.Arr? || v.Obj?
  }

  function Digit(d: nat): (c: char)
    requires d < 10
    ensures '0' <= c <= '9'
  {
    "0123456789"[d]
  }

  /** Decimal representation of a natural number, without leading zeros. */
  function NatToString(n: nat): (r: string)
    ensures |r| >= 1
    ensures forall i :: 0 <= i < |r| ==> '0' <= r[i] <= '9'
    ensures n > 0 ==> r[0] != '0'
  {
    if n < 10 then [Digit(n)] else NatToString(n / 10) + [Digit(n % 10)]
  }

  function IntToString(n: int): string {
    if n < 0 then "-" + NatToString(-n) else NatToString(n)
  }

  /** `String(v)` for the modelled values. */
  function ToStr(v: Value): string {
    match v
    case Undefined => "undefined"
    case Null => "null"
    case Bool(b) => if b then "true" else "false"
    case Num(n) => IntToString(n)
    case Str(s) => s
    case Arr(items) => JoinItems(v, items)
    case Obj(_) => "[object Object]"
    case Fun(src) => src
  }

  /** `Array.prototype.join(',')`: null and undefined elements print as "". */
  function JoinItems(ghost whole: Value, items: seq<Value>): string
    requires forall i :: 0 <= i < |items| ==> items[i] < whole
    decreases whole, |items|
  {
    if |items| == 0 then ""
    else
      var last := items[|items| - 1];
      var s := if last.Undefined? || last.Null? then "" else ToStr(last);
      if |items| == 1 then s else JoinItems(whole, items[..|items| - 1]) + "," + s
  }

  /** The values `config[i]` visits for `i in config`, in enumeration order. */
  function ForInValues(config: Value): (r: seq<Value>)
    ensures config.Obj? ==> |r| == |config.fields|
    ensures config.Arr? ==> r == config.items
    ensures config.Str? ==> |r| == |config.s|
    ensures !(config.Obj? || config.Arr? || config.Str?) ==> r == []
  {
    match config
    case Obj(fields) => seq(|fields|, i requires 0 <= i < |fields| => fields[i].val)
    case Arr(items) => items
    case Str(s) => seq(|s|, i requires 0 <= i < |s| => Str([s[i]]))
    case _ => []
  }

  /** `config_str += v` over a sequence of values, left to right. */
  function Concat(vs: seq<Value>): string {
    if |vs| == 0 then "" else Concat(vs[..|vs| - 1]) + ToStr(vs[|vs| - 1])
  }

  /** The profile key `open` derives from a configuration. */
  function ConfigKey(config: Value): string {
    Concat(ForInValues(config))
  }

  /** The first own property called `name`, if any. */
  function Lookup(fields: seq<Field>, name: string): (r: Option<Value>)
    ensures r.Some? <==> exists i :: 0 <= i < |fields| && fields[i].name == name
    ensures r.Some? ==> exists i :: 0 <= i < |fields| && fields[i] == Field(name, r.value)
  {
    if |fields| == 0 then None
    else if fields[0].name == name then Some(fields[0].val)
    else
      var r := Lookup(fields[1..], name);
      assert forall i :: 1 <= i < |fields| ==> fields[i] == fields[1..][i - 1];
      r
  }

  /** `v.hasOwnProperty(i) ? v[i] : <absent>` for a non-null value `v`. */
  function OwnIndex(v: Value, i: nat): (r: Option<Value>)
    ensures v.Arr? ==> (r.Some? <==> i < |v.items|)
    ensures v.Arr? && i < |v.items| ==> r == Some(v.items[i])
    ensures v.Str? ==> (r.Some? <==> i < |v.s|)
    ensures (v.Num? || v.Bool? || v.Fun? || v.Undefined? || v.Null?) ==> r.None?
  {
    match v
    case Arr(items) => if i < |items| then Some(items[i]) else None
    case Str(s) => if i < |s| then Some(Str([s[i]])) else None
    case Obj(fields) => Lookup(fields, NatToString(i))
    case _ => None
  }

  /** `arguments[0]`. */
  function First(args: seq<Value>): Value {
    if |args| > 0 then args[0] else Undefined
  }

  // ---------------------------------------------------------------------
  // Properties of the key `open` derives

  lemma {:induction false} ConcatAppend(a: seq<Value>, b: seq<Value>)
    ensures Concat(a + b) == Concat(a) + Concat(b)
    decreases |b|
  {
    if |b| == 0 {
      assert a + b == a;
    } else {
      var init, last := b[..|b| - 1], b[|b| - 1];
      assert (a + b)[..|a + b| - 1] == a + init;
      assert (a + b)[|a + b| - 1] == last;
      assert Concat(a + b) == Concat(a + init) + ToStr(last);
      ConcatAppend(a, init);
      assert Concat(b) == Concat(init) + ToStr(last);
    }
  }

  /** A string configuration enumerates its characters, so its key is itself. */
  lemma {:induction false} ConfigKeyOfString(s: string)
    ensures ConfigKey(Str(s)) == s
    decreases |s|
  {
    if |s| > 0 {
      var vs := ForInValues(Str(s));
      var init := s[..|s| - 1];
      assert vs[..|vs| - 1] == ForInValues(Str(init));
      ConfigKeyOfString(init);
      assert s == init + [s[|s| - 1]];
    }
  }

  /** The key depends on the property values only: property names are lost. */
  lemma ConfigKeyIgnoresNames(f: seq<Field>, g: seq<Field>)
    requires |f| == |g|
    requires forall i :: 0 <= i < |f| ==> f[i].val == g[i].val
    ensures ConfigKey(Obj(f)) == ConfigKey(Obj(g))
  {
    assert ForInValues(Obj(f)) == ForInValues(Obj(g));
  }

  /** The key of an object is the keys of its two halves, concatenated. */
  lemma ConfigKeySplits(f: seq<Field>, g: seq<Field>)
    ensures ConfigKey(Obj(f + g)) == ConfigKey(Obj(f)) + ConfigKey(Obj(g))
  {
    assert ForInValues(Obj(f + g)) == ForInValues(Obj(f)) + ForInValues(Obj(g));
    ConcatAppend(ForInValues(Obj(f)), ForInValues(Obj(g)));
  }

  /** Two different configurations can share one key. */
  lemma ConfigKeysCollide()
    ensures ConfigKey(Obj([Field("host", Str("ab"))]))
         == ConfigKey(Obj([Field("host", Str("a")), Field("user", Str("b"))]))
  {
    var one := [Field("host", Str("ab"))];
    var two := [Field("host", Str("a")), Field("user", Str("b"))];
    assert ForInValues(Obj(one)) == [Str("ab")];
    assert ForInValues(Obj(two)) == [Str("a"), Str("b")];
    assert [Str("a"), Str("b")][..1] == [Str("a")];
    assert [Str("ab")][..0] == [];
    assert [Str("a")][..0] == [];
  }
}

=== FILE: legacy.dfy ===
/**
 * The older client (CustomMySQL.js at the repository root). It differs from
 * the current one in four ways that matter: `add` validates nothing and
 * leaves the active key alone, `use` connects lazily, the retry counter
 * `this.retries` belongs to the client rather than to a query, and
 * `max_retry` is a setter without a getter.
 *
 * The query wrapper here reads and writes the client itself, so a query's
 * run threads the client state through its replies.
 */
module Legacy {
  import opened Js
  import opened Registry
  import Query
  import Batch

  /** `this.retries`: undefined until the first `use`; `undefined + 1` is NaN. */
  datatype Counter = Unset | Count(n: nat) | NotANumber

  datatype State = State(
    profiles: map<string, Profile>,  // this[key]
    key: Option<string>,             // _key
    retries: Counter,                // retries, shared by every query
    retryable: Option<seq<string>>,  // retryable_errors
    maxRetry: Value,                 // _max_retry, written by the max_retry setter
    args: Option<seq<Value>>)        // _args

  datatype Transition = Done(state: State) | Threw(error: Error, state: State)

  /** The constructor: `this.max_retry = 3` goes through the setter, and the
      shared counter is not yet a number. */
  function New(): (r: State)
    ensures Valid(r) && r.profiles == map[] && Active(r.key).None?
    ensures r.retries == Unset && r.maxRetry == Num(3) && ReadMaxRetry(r) == Undefined
  {
    State(map[], None, Unset, None, Num(3), None)
  }

  ghost predicate Valid(s: State) {
    s.key.Some? ==> s.key.value in s.profiles
  }

  /** The `max_retry` setter: stores the value as given, falsy or not. */
  function SetMaxRetry(s: State, max: Value): (r: State)
    ensures r.maxRetry == max
    ensures r == s.(maxRetry := max)
  {
    s.(maxRetry := max)
  }

  /** Reading `this.max_retry`: the accessor has no getter, so the read
      yields undefined whatever the setter stored. */
  function ReadMaxRetry(s: State): Value {
    Undefined
  }

  /** `this.retries++`. */
  function Bump(c: Counter): (r: Counter)
    ensures c.Count? ==> r == Count(c.n + 1)
    ensures !c.Count? ==> r == NotANumber
  {
    match c
    case Count(n) => Count(n + 1)
    case _ => NotANumber
  }

  /** `this.retries === v`. */
  predicate CounterEquals(c: Counter, v: Value) {
    c.Count? && v == Num(c.n)
  }

  /** `add(key, config, is_pool)`: store `{config}`, and only for a pool mark
      it pooled and create its handle. The active key is left alone. */
  function Add(s: State, key: string, config: Value, isPool: Value): (r: State)
    ensures key in r.profiles && r.profiles[key] == Profile(config, Truthy(isPool), Truthy(isPool))
    ensures forall k :: k in s.profiles && k != key ==> k in r.profiles && r.profiles[k] == s.profiles[k]
    ensures r.profiles.Keys == s.profiles.Keys + {key}
    ensures r == s.(profiles := r.profiles)
    ensures Valid(s) ==> Valid(r)
  {
    s.(profiles := s.profiles[key := Profile(config, Truthy(isPool), Truthy(isPool))])
  }

  /** `use(key)`: switch the active key, reset the shared counter and the
      retry codes, and create an exclusive connection if the profile has none. */
  function Use(s: State, key: string): (r: Transition)
    ensures key !in s.profiles <==> r.Threw?
    ensures r.Threw? ==> r == Threw(KeyDoesNotExist, s)
    ensures r.Done? ==>
              && r.state.key == Some(key) && r.state.retries == Count(0) && r.state.retryable.None?
              && r.state.profiles == s.profiles[key := s.profiles[key].(hasConnection := true)]
              && r.state.maxRetry == s.maxRetry && r.state.args == s.args
    ensures Valid(s) ==> Valid(r.state)
  {
    if key !in s.profiles then Threw(KeyDoesNotExist, s)
    else
      var s' := s.(key := Some(key), retries := Count(0), retryable := None);
      if s'.profiles[key].hasConnection then Done(s')
      else Done(s'.(profiles := s'.profiles[key := s'.profiles[key].(hasConnection := true)]))
  }

  /** `args(...)`. */
  function Args(s: State, values: seq<Value>): (r: Transition)
    ensures r.Threw? <==> Active(s.key).None?
    ensures r.Threw? ==> r == Threw(KeyDoesNotExist, s)
    ensures r.Done? ==> r.state == s.(args := Some(values))
  {
    if Active(s.key).None? then Threw(KeyDoesNotExist, s) else Done(s.(args := Some(values)))
  }

  /** `retry_if(codes)`. */
  function RetryIf(s: State, codes: Option<seq<string>>): (r: State)
    ensures r.retryable == codes
    ensures r == s.(retryable := codes)
  {
    s.(retryable := codes)
  }

  /** The connection `query` finds: `this._key && this[this._key].connection`. */
  predicate Connected(s: State) {
    Active(s.key).Some? && Active(s.key).value in s.profiles && s.profiles[Active(s.key).value].hasConnection
  }

  /** The synchronous part of `query(...)`: it throws unless the active
      profile holds a connection. */
  function Submit(s: State): (r: Transition)
    ensures r.Done? <==> Connected(s)
    ensures r.state == s
    ensures Valid(s) && r.Threw? ==> r.error == StartConnectionFirst
  {
    match Active(s.key)
    case None => Threw(StartConnectionFirst, s)
    case Some(k) =>
      if k !in s.profiles then Threw(TypeError, s)
      else if s.profiles[k].hasConnection then Done(s)
      else Threw(StartConnectionFirst, s)
  }

  /** `end()`: drop the active exclusive connection; a pool stays. */
  function End(s: State): (r: Transition)
    ensures r.Threw? ==> r.state == s
    ensures Valid(s) ==>
              (r.Threw? <==> Active(s.key).None? || !s.profiles[Active(s.key).value].hasConnection)
    ensures r.Done? ==> Active(s.key).Some? && Active(s.key).value in s.profiles
    ensures r.Done? && !s.profiles[s.key.value].isPool ==>
              r.state == s.(profiles := s.profiles[s.key.value := s.profiles[s.key.value].(hasConnection := false)])
    ensures r.Done? && s.profiles[s.key.value].isPool ==> r.state == s
    ensures Valid(s) ==> Valid(r.state)
  {
    // Only registered keys become active here, so no name reads as a bare value.
    match EndDecision(s.profiles, s.key, {})
    case Close(k) => Done(s.(profiles := s.profiles[k := s.profiles[k].(hasConnection := false)]))
    case Keep => Done(s)
    case Fail(e) => Threw(e, s)
  }

  /** `on(event, cb)`. */
  function On(s: State): (r: Transition)
    ensures r.state == s
    ensures r.Done? <==> Connected(s)
    ensures Active(s.key).None? ==> r == Threw(KeyDoesNotExist, s)
  {
    match Active(s.key)
    case None => Threw(KeyDoesNotExist, s)
    case Some(k) => if k in s.profiles && s.profiles[k].hasConnection then Done(s) else Threw(TypeError, s)
  }

  /** `open(config)`, as in the current client. */
  function Open(s: State, config: Value): (r: State)
    ensures r.key == Some(ConfigKey(config))
    ensures ConfigKey(config) in r.profiles && r.profiles[ConfigKey(config)].hasConnection
    ensures ConfigKey(config) in s.profiles && s.profiles[ConfigKey(config)].hasConnection ==>
              r == s.(key := Some(ConfigKey(config)))
    ensures r == s.(key := r.key, profiles := OpenProfiles(s.profiles, config))
    ensures Valid(r)
  {
    s.(key := Some(ConfigKey(config)), profiles := OpenProfiles(s.profiles, config))
  }

  // ---------------------------------------------------------------------
  // The query wrapper over the shared counter

  /** Whether the wrapper retries a reply under the client's current codes. */
  predicate RetryableUnder(s: State, reply: Query.Reply) {
    reply.Err? && s.retryable.Some? && reply.code in s.retryable.value
  }

  /** The limit the exhaustion check compares with: `this.max_retry` as
      written, `this._max_retry` when `fixed`. */
  function Limit(s: State, fixed: bool): Value {
    if fixed then s.maxRetry else ReadMaxRetry(s)
  }

  /** The arrow-function wrapper, run on the client as it is when the reply arrives. */
  function OnReply(s: State, args: seq<Value>, reply: Query.Reply, fixed: bool): (r: (State, Query.Action))
    ensures r.0 == if RetryableUnder(s, reply) then s.(retries := Bump(s.retries)) else s
    ensures r.1.Deliver? ==> r.1.d.args == s.args && r.1.d.lastQuery == First(args)
    ensures r.1.Deliver? && r.1.d.err == Some(Query.RetriesExhausted) <==>
              RetryableUnder(s, reply) && CounterEquals(Bump(s.retries), Limit(s, fixed))
    ensures r.1.Reissue? <==>
              RetryableUnder(s, reply) && !CounterEquals(Bump(s.retries), Limit(s, fixed)) && Connected(s)
    ensures r.1.Crash? <==>
              RetryableUnder(s, reply) && !CounterEquals(Bump(s.retries), Limit(s, fixed)) && !Connected(s)
    ensures !RetryableUnder(s, reply) ==>
              r.1 == Query.Deliver(Query.Forwarded(reply, Query.ClientView(s.retryable, ReadMaxRetry(s), s.args, Connected(s)), First(args)))
  {
    if RetryableUnder(s, reply) then
      var s' := s.(retries := Bump(s.retries));
      if CounterEquals(s'.retries, Limit(s', fixed)) then
        (s', Query.Deliver(Query.Delivery(Some(Query.RetriesExhausted), Null, s'.args, First(args))))
      else if Submit(s').Threw? then (s', Query.Crash)
      else (s', Query.Reissue)
    else
      var view := Query.ClientView(s.retryable, ReadMaxRetry(s), s.args, Connected(s));
      (s, Query.Deliver(Query.Forwarded(reply, view, First(args))))
  }

  /** How many of the first `k` replies the codes in `s` make retryable. */
  function RetryableCount(s: State, replies: seq<Query.Reply>, k: nat): (n: nat)
    ensures n <= k && n <= |replies|
    decreases |replies|
  {
    if k == 0 || |replies| == 0 then 0
    else (if RetryableUnder(s, replies[0]) then 1 else 0) + RetryableCount(s, replies[1..], k - 1)
  }

  /** The counter after `k` increments. */
  function BumpTimes(c: Counter, k: nat): (r: Counter)
    ensures c.Count? ==> r == Count(c.n + k)
    ensures c.Unset? ==> r == if k == 0 then Unset else NotANumber
  {
    if k == 0 then c else Bump(BumpTimes(c, k - 1))
  }

  datatype Run = Run(state: State, calls: seq<seq<Query.Slot>>, outcome: Query.Outcome, consumed: nat)

  /** The remaining replies of a query with one call outstanding. */
  function Resume(s: State, args: seq<Value>, replies: seq<Query.Reply>, fixed: bool): (r: Run)
    ensures r.consumed <= |replies|
    ensures |r.calls| == if r.outcome.Pending? then r.consumed else r.consumed - 1
    ensures forall i :: 0 <= i < |r.calls| ==> r.calls[i] == Query.Issue(args)
    ensures r.state == s.(retries := BumpTimes(s.retries, RetryableCount(s, replies, r.consumed)))
    ensures r.outcome.Delivered? && !RetryableUnder(s, replies[r.consumed - 1]) ==>
              r.outcome.d == Query.Forwarded(replies[r.consumed - 1],
                                             Query.ClientView(s.retryable, ReadMaxRetry(s), s.args, Connected(s)), First(args))
    ensures r.outcome.Delivered? && RetryableUnder(s, replies[r.consumed - 1]) ==>
              r.outcome.d == Query.Delivery(Some(Query.RetriesExhausted), Null, s.args, First(args))
    decreases |replies|
  {
    if |replies| == 0 then Run(s, [], Query.Pending, 0)
    else
      var (s', act) := OnReply(s, args, replies[0], fixed);
      match act
      case Deliver(d) => Run(s', [], Query.Delivered(d), 1)
      case Crash => Run(s', [], Query.Raised, 1)
      case Reissue =>
        var rest := Resume(s', args, replies[1..], fixed);
        RetryableCountIgnoresCounter(s, s', replies[1..], rest.consumed);
        BumpTimesSucc(s.retries, RetryableCount(s, replies[1..], rest.consumed));
        Run(rest.state, [Query.Issue(args)] + rest.calls, rest.outcome, rest.consumed + 1)
  }

  lemma {:induction false} RetryableCountIgnoresCounter(s: State, t: State, replies: seq<Query.Reply>, k: nat)
    requires t.retryable == s.retryable
    ensures RetryableCount(t, replies, k) == RetryableCount(s, replies, k)
    decreases |replies|
  {
    if k > 0 && |replies| > 0 {
      RetryableCountIgnoresCounter(s, t, replies[1..], k - 1);
    }
  }

  lemma {:induction false} BumpTimesSucc(c: Counter, k: nat)
    ensures BumpTimes(Bump(c), k) == BumpTimes(c, k + 1)
    decreases k
  {
    if k > 0 {
      BumpTimesSucc(c, k - 1);
    }
  }

  /** `query(...)` followed by its replies. */
  function Execute(s: State, args: seq<Value>, replies: seq<Query.Reply>, fixed: bool): (r: Run)
    ensures !Connected(s) ==> r == Run(s, [], Query.Raised, 0)
    ensures r.consumed <= |replies|
    ensures Connected(s) ==> 1 <= |r.calls| && forall i :: 0 <= i < |r.calls| ==> r.calls[i] == Query.Issue(args)
    ensures Connected(s) ==> |r.calls| == if r.outcome.Pending? then r.consumed + 1 else r.consumed
    ensures r.state == s.(retries := BumpTimes(s.retries, RetryableCount(s, replies, r.consumed)))
    ensures r.outcome.Delivered? && !RetryableUnder(s, replies[r.consumed - 1]) ==>
              r.outcome.d == Query.Forwarded(replies[r.consumed - 1],
                                             Query.ClientView(s.retryable, ReadMaxRetry(s), s.args, Connected(s)), First(args))
    ensures r.outcome.Delivered? && RetryableUnder(s, replies[r.consumed - 1]) ==>
              r.outcome.d == Query.Delivery(Some(Query.RetriesExhausted), Null, s.args, First(args))
  {
    if Submit(s).Threw? then Run(s, [], Query.Raised, 0)
    else if Query.CallbackIndex(args).None? then Run(s, [Query.Issue(args)], Query.Pending, 0)
    else
      var rest := Resume(s, args, replies, fixed);
      Run(rest.state, [Query.Issue(args)] + rest.calls, rest.outcome, rest.consumed)
  }

  /** The query as written. */
  function RunQuery(s: State, args: seq<Value>, replies: seq<Query.Reply>): Run {
    Execute(s, args, replies, false)
  }

  /** The query with the exhaustion check reading `_max_retry`. */
  function RunQueryFixed(s: State, args: seq<Value>, replies: seq<Query.Reply>): Run {
    Execute(s, args, replies, true)
  }

  /** A reply to whichever in-flight query was issued with `args`. */
  datatype Event = Event(args: seq<Value>, reply: Query.Reply)

  /** How many of the events the codes in `s` make retryable. */
  function RetryableEvents(s: State, events: seq<Event>): (n: nat)
    ensures n <= |events|
  {
    if |events| == 0 then 0
    else (if RetryableUnder(s, events[0].reply) then 1 else 0) + RetryableEvents(s, events[1..])
  }

  lemma {:induction false} RetryableEventsIgnoresCounter(s: State, t: State, events: seq<Event>)
    requires t.retryable == s.retryable
    ensures RetryableEvents(t, events) == RetryableEvents(s, events)
    decreases |events|
  {
    if |events| > 0 {
      RetryableEventsIgnoresCounter(s, t, events[1..]);
    }
  }

  /** Replies to several in-flight queries, in arrival order, on one client:
      every retryable reply of any of them bumps the one shared counter, and
      nothing else about the client changes. */
  function Replies(s: State, events: seq<Event>, fixed: bool): (r: (State, seq<Query.Action>))
    ensures |r.1| == |events|
    ensures r.0 == s.(retries := BumpTimes(s.retries, RetryableEvents(s, events)))
    decreases |events|
  {
    if |events| == 0 then (s, [])
    else
      var (s', act) := OnReply(s, events[0].args, events[0].reply, fixed);
      var (s'', acts) := Replies(s', events[1..], fixed);
      RetryableEventsIgnoresCounter(s, s', events[1..]);
      BumpTimesSucc(s.retries, RetryableEvents(s, events[1..]));
      (s'', [act] + acts)
  }

  // ---------------------------------------------------------------------
  // Dispatch of `async`

  /** The first `n` iterations of `args.forEach(...)`. */
  function Dispatch(s: State, call: Batch.AsyncCall, n: nat): (r: (Transition, seq<seq<Value>>))
    requires n <= |call.items|
    ensures Valid(s) ==> (r.0.Threw? <==> n >= 1 && !Connected(s))
    ensures r.0.Threw? && Active(s.key).None? ==> r.0 == Threw(KeyDoesNotExist, s) && r.1 == []
    ensures Valid(s) && r.0.Threw? && Active(s.key).Some? ==>
              r.0 == Threw(StartConnectionFirst, s.(args := Some([Batch.ItemArg(call, 0)]))) && r.1 == []
    ensures r.0.Done? ==> |r.1| == n
    ensures r.0.Done? ==> forall i :: 0 <= i < n ==> r.1[i] == Batch.ItemQuery(call, i)
    ensures r.0.Done? && n >= 1 ==> r.0.state == s.(args := Some([Batch.ItemArg(call, n - 1)]))
    ensures r.0.Done? && n == 0 ==> r.0.state == s
  {
    if n == 0 then (Done(s), [])
    else
      var (t, calls) := Dispatch(s, call, n - 1);
      if t.Threw? then (t, calls)
      else
        match Args(t.state, [Batch.ItemArg(call, n - 1)])
        case Threw(e, s1) => (Threw(e, s1), calls)
        case Done(s1) =>
          match Submit(s1)
          case Threw(e, s2) => (Threw(e, s2), calls)
          case Done(s2) => (Done(s2), calls + [Batch.ItemQuery(call, n - 1)])
  }

  /** `async(query, args, ...rest)`. */
  function Async(s: State, query: Value, items: seq<Value>, rest: seq<Value>): (r: (Transition, seq<seq<Value>>))
    ensures Valid(s) ==> (r.0.Threw? <==> |items| >= 1 && !Connected(s))
    ensures r.0.Done? ==> |r.1| == |items|
  {
    Dispatch(s, Batch.Normalise(query, items, rest), |items|)
  }

  /** Whatever the replies, a delivery of the older wrapper carries the
      client's `_args` and the query's first argument: re-issues bump only the
      counter, so `_args` is read from the client the query started on. */
  lemma {:induction false} ResumeDeliversClientArgs(s: State, args: seq<Value>, replies: seq<Query.Reply>, fixed: bool)
    ensures var run := Resume(s, args, replies, fixed);
            run.outcome.Delivered? ==> run.outcome.d.args == s.args && run.outcome.d.lastQuery == First(args)
    decreases |replies|
  {
    if |replies| > 0 {
      var (s', act) := OnReply(s, args, replies[0], fixed);
      if act.Reissue? {
        ResumeDeliversClientArgs(s', args, replies[1..], fixed);
      }
    }
  }

  /** The older wrapper also reads `_args` from the client, and every
      dispatch overwrites it: while the client is left alone, every item of a
      batch reports the value announced for the LAST item, with its own query. */
  lemma BatchReportsLastItemArgs(s: State, query: Value, items: seq<Value>, rest: seq<Value>,
                                 i: nat, replies: seq<Query.Reply>, fixed: bool)
    requires Async(s, query, items, rest).0.Done?
    requires i < |items|
    ensures var run := Execute(Async(s, query, items, rest).0.state, Async(s, query, items, rest).1[i], replies, fixed);
            run.outcome.Delivered? ==>
              run.outcome.d.args == Some([Batch.ItemArg(Batch.Normalise(query, items, rest), |items| - 1)])
              && run.outcome.d.lastQuery == query
  {
    var (t, calls) := Async(s, query, items, rest);
    ResumeDeliversClientArgs(t.state, calls[i], replies, fixed);
  }

  // ---------------------------------------------------------------------
  // Properties

  /** `max_retry` can be written but reads back as undefined; only the
      field `_max_retry` behind it holds the value. */
  lemma MaxRetryIsWriteOnly(s: State, v: Value)
    ensures ReadMaxRetry(SetMaxRetry(s, v)) == Undefined
    ensures Limit(SetMaxRetry(s, v), false) == Undefined && Limit(SetMaxRetry(s, v), true) == v
    ensures !CounterEquals(SetMaxRetry(s, v).retries, Limit(SetMaxRetry(s, v), false))
  {
  }

  /** The codes set with `retry_if` decide the very next reply: a listed
      code bumps the shared counter and is not handed to the callback, and
      clearing the codes makes the wrapper forward every reply untouched. */
  lemma RetryIfGovernsNextReply(s: State, codes: seq<string>, code: string, args: seq<Value>,
                                reply: Query.Reply, fixed: bool)
    requires code in codes
    ensures var r := OnReply(RetryIf(s, Some(codes)), args, Query.Err(code), fixed);
            && r.0 == RetryIf(s, Some(codes)).(retries := Bump(s.retries))
            && (r.1.Deliver? ==> r.1.d.err == Some(Query.RetriesExhausted))
    ensures var r := OnReply(RetryIf(s, None), args, reply, fixed);
            && r.0 == RetryIf(s, None)
            && r.1 == Query.Deliver(Query.Forwarded(reply, Query.ClientView(None, Undefined, s.args, Connected(s)), First(args)))
  {
  }

  /** Using a key twice creates no second connection. */
  lemma UseIdempotent(s: State, key: string)
    requires key in s.profiles
    ensures Use(Use(s, key).state, key) == Use(s, key)
  {
  }

  /** A profile that already holds a connection — every pooled one from
      `add` — gets no new one from `use`. */
  lemma UseKeepsExistingConnection(s: State, key: string, config: Value)
    ensures Use(Add(s, key, config, Bool(true)), key).state.profiles == Add(s, key, config, Bool(true)).profiles
    ensures key in s.profiles && s.profiles[key].hasConnection ==> Use(s, key).state.profiles == s.profiles
  {
  }

  lemma {:induction false} ResumeNeverExhausts(s: State, args: seq<Value>, replies: seq<Query.Reply>)
    ensures Resume(s, args, replies, false).outcome.Delivered? ==>
              Resume(s, args, replies, false).outcome.d.err != Some(Query.RetriesExhausted)
    decreases |replies|
  {
    if |replies| > 0 {
      var (s', act) := OnReply(s, args, replies[0], false);
      if act.Reissue? {
        ResumeNeverExhausts(s', args, replies[1..]);
      }
    }
  }

  /** As written, the exhaustion check compares the counter with undefined:
      the exhaustion marker is never delivered, whatever `max_retry` was set to. */
  lemma NeverReportsExhaustion(s: State, args: seq<Value>, replies: seq<Query.Reply>)
    ensures RunQuery(s, args, replies).outcome.Delivered? ==>
              RunQuery(s, args, replies).outcome.d.err != Some(Query.RetriesExhausted)
  {
    ResumeNeverExhausts(s, args, replies);
  }

  /** Replies that are errors with one of the client's retryable codes. */
  ghost predicate AllRetryableUnder(s: State, replies: seq<Query.Reply>) {
    forall i :: 0 <= i < |replies| ==> RetryableUnder(s, replies[i])
  }

  lemma {:induction false} ResumeKeepsReissuing(s: State, args: seq<Value>, replies: seq<Query.Reply>)
    requires Connected(s) && AllRetryableUnder(s, replies)
    ensures Resume(s, args, replies, false).outcome.Pending?
    ensures Resume(s, args, replies, false).consumed == |replies|
    decreases |replies|
  {
    if |replies| > 0 {
      var (s', act) := OnReply(s, args, replies[0], false);
      ResumeKeepsReissuing(s', args, replies[1..]);
    }
  }

  /** As written, a persistently retryable error is re-issued once per
      reply, without bound: with `max_retry` set to 3, three such replies
      already lead to a fourth call. */
  lemma ReissuesWithoutBound(s: State, args: seq<Value>, replies: seq<Query.Reply>)
    requires Connected(s) && Query.CallbackIndex(args).Some?
    requires AllRetryableUnder(s, replies)
    ensures RunQuery(s, args, replies).outcome.Pending?
    ensures |RunQuery(s, args, replies).calls| == |replies| + 1
  {
    ResumeKeepsReissuing(s, args, replies);
  }

  lemma {:induction false} ResumeFixedExhausts(s: State, args: seq<Value>, replies: seq<Query.Reply>, m: nat)
    requires Connected(s) && AllRetryableUnder(s, replies)
    requires s.retries.Count? && s.retries.n < m <= s.retries.n + |replies|
    requires s.maxRetry == Num(m)
    ensures var r := Resume(s, args, replies, true);
            && |r.calls| == m - s.retries.n - 1
            && r.outcome == Query.Delivered(Query.Delivery(Some(Query.RetriesExhausted), Null, s.args, First(args)))
    decreases |replies|
  {
    var (s', act) := OnReply(s, args, replies[0], true);
    if s.retries.n + 1 < m {
      ResumeFixedExhausts(s', args, replies[1..], m);
    }
  }

  /** With the check reading `_max_retry`, a persistently retryable error is
      re-issued until the shared counter reaches the limit `m`: a query
      starting at counter `k < m` makes `m - k` calls and then delivers the
      exhaustion marker. */
  lemma FixedExhaustsAfterMax(s: State, args: seq<Value>, replies: seq<Query.Reply>, m: nat)
    requires Connected(s) && Query.CallbackIndex(args).Some?
    requires AllRetryableUnder(s, replies)
    requires s.retries.Count? && s.retries.n < m <= s.retries.n + |replies|
    requires s.maxRetry == Num(m)
    ensures |RunQueryFixed(s, args, replies).calls| == m - s.retries.n
    ensures RunQueryFixed(s, args, replies).outcome
         == Query.Delivered(Query.Delivery(Some(Query.RetriesExhausted), Null, s.args, First(args)))
  {
    ResumeFixedExhausts(s, args, replies, m);
  }

  /** The counter is the client's: retryable replies to other queries use up
      the budget of a query that starts after them, even with the check fixed. */
  lemma OtherQueriesShortenBudget(s: State, events: seq<Event>, k: nat, t: State, args: seq<Value>,
                                   replies: seq<Query.Reply>, m: nat)
    requires Connected(s) && Query.CallbackIndex(args).Some?
    requires s.retries == Count(0) && s.maxRetry == Num(m)
    requires k == RetryableEvents(s, events) && t == Replies(s, events, true).0
    requires k < m <= k + |replies|
    requires AllRetryableUnder(s, replies)
    ensures |RunQueryFixed(t, args, replies).calls| == m - k
  {
    FixedExhaustsAfterMax(t, args, replies, m);
  }
}

=== FILE: query.dfy ===
/**
 * One logical query of the current client (lib/Query.js): the argument
 * tuple with its callback swapped for a wrapper, and the wrapper's decision
 * on every driver reply — forward to the user callback, or re-issue the
 * identical tuple after counting one more retry.
 *
 * The driver is a script: one `Attempt` per reply, holding the reply and
 * what the wrapper reads from the client at the moment the reply arrives.
 */
module Query {
  import opened Js

  /** The first argument the user callback receives. */
  datatype QueryError =
    | DriverError(code: string)   // the driver's error object, known by its code
    | RetriesExhausted            // the synthetic { message: 'Reached max retries' }

  /** One driver reply `(err, result)`; an erroring reply carries no result. */
  datatype Reply = Ok(result: Value) | Err(code: string)

  /** The client fields the wrapper reads when a reply arrives. */
  datatype ClientView = ClientView(
    retryable: Option<seq<string>>,  // retryable_errors; None is null or undefined
    maxRetry: Value,                 // _max_retry
    args: Option<seq<Value>>,        // _args; None is undefined
    connected: bool)                 // current_connection is set

  datatype Attempt = Attempt(reply: Reply, view: ClientView)

  /** One argument as handed to `connection.query`. */
  datatype Slot = Given(v: Value) | Wrapped

  /** `cb(err, result, mysql._args, last_query)`. */
  datatype Delivery = Delivery(err: Option<QueryError>, result: Value, args: Option<seq<Value>>, lastQuery: Value)

  /** A `Query` object: the original argument tuple and its own retry counter. */
  datatype Instance = Instance(args: seq<Value>, retries: nat)

  /** What one wrapper invocation does. `Crash` is the re-issue throwing
      because `current_connection` is gone. */
  datatype Action = Deliver(d: Delivery) | Reissue | Crash

  datatype Outcome = Delivered(d: Delivery) | Pending | Raised

  /** A whole logical query: every tuple sent to the connection, how it
      ended, how many replies it consumed, and the final retry counter. */
  datatype Run = Run(calls: seq<seq<Slot>>, outcome: Outcome, consumed: nat, retries: nat)

  /** The callback is the last function among the arguments. */
  function CallbackIndex(args: seq<Value>): (r: Option<nat>)
    ensures r.Some? ==> r.value < |args| && args[r.value].Fun?
    ensures r.Some? ==> forall j :: r.value < j < |args| ==> !args[j].Fun?
    ensures r.None? ==> forall j :: 0 <= j < |args| ==> !args[j].Fun?
  {
    if |args| == 0 then None
    else if args[|args| - 1].Fun? then Some(|args| - 1)
    else CallbackIndex(args[..|args| - 1])
  }

  /** The tuple handed to `connection.query`: the callback slot holds the wrapper. */
  function Issue(args: seq<Value>): (r: seq<Slot>)
    ensures |r| == |args|
    ensures forall i :: 0 <= i < |args| ==> (r[i].Wrapped? <==> CallbackIndex(args) == Some(i))
    ensures forall i :: 0 <= i < |args| && r[i].Given? ==> r[i].v == args[i]
  {
    var cb := CallbackIndex(args);
    seq(|args|, i requires 0 <= i < |args| => if cb == Some(i) then Wrapped else Given(args[i]))
  }

  /** Putting a function back in the wrapper's slot. */
  function Restore(slots: seq<Slot>, cb: Value): (r: seq<Value>)
    ensures |r| == |slots|
  {
    seq(|slots|, i requires 0 <= i < |slots| => if slots[i].Wrapped? then cb else slots[i].v)
  }

  /** The wrapper takes the place of the last function argument and of
      nothing else, and putting the callback back yields the caller's tuple. */
  lemma IssueReplacesOnlyCallback(args: seq<Value>)
    ensures forall i :: 0 <= i < |args| ==>
              (Issue(args)[i].Wrapped? <==> args[i].Fun? && forall j :: i < j < |args| ==> !args[j].Fun?)
    ensures forall i :: 0 <= i < |args| && Issue(args)[i].Given? ==> Issue(args)[i].v == args[i]
    ensures CallbackIndex(args).Some? ==> Restore(Issue(args), args[CallbackIndex(args).value]) == args
  {
  }

  /** A function argument with no function after it is the one found. */
  lemma {:induction false} CallbackIsLastFunction(args: seq<Value>, i: nat)
    requires i < |args| && args[i].Fun?
    requires forall j :: i < j < |args| ==> !args[j].Fun?
    ensures CallbackIndex(args) == Some(i)
    decreases |args|
  {
    if i < |args| - 1 {
      CallbackIsLastFunction(args[..|args| - 1], i);
    }
  }

  /** Whether the wrapper treats a reply as retryable: an error whose code is
      listed in the retryable codes read at that moment. */
  predicate Retryable(a: Attempt) {
    a.reply.Err? && a.view.retryable.Some? && a.reply.code in a.view.retryable.value
  }

  /** The `(err, result)` a reply forwards unchanged. */
  function Forwarded(r: Reply, view: ClientView, lastQuery: Value): (d: Delivery)
    ensures d.args == view.args && d.lastQuery == lastQuery
    ensures d.err.None? <==> r.Ok?
  {
    match r
    case Ok(res) => Delivery(None, res, view.args, lastQuery)
    case Err(code) => Delivery(Some(DriverError(code)), Undefined, view.args, lastQuery)
  }

  /** `new_callback(err, result)`: count, then exhaust or re-issue, for a
      retryable reply; forward anything else. */
  function OnReply(q: Instance, a: Attempt): (r: (Instance, Action))
    ensures r.0.args == q.args
    ensures r.0.retries == if Retryable(a) then q.retries + 1 else q.retries
    ensures r.1.Deliver? ==> r.1.d.args == a.view.args && r.1.d.lastQuery == First(q.args)
    ensures r.1.Deliver? && r.1.d.err == Some(RetriesExhausted) <==>
              Retryable(a) && a.view.maxRetry == Num(q.retries + 1)
    ensures r.1.Reissue? <==>
              Retryable(a) && a.view.maxRetry != Num(q.retries + 1) && a.view.connected
    ensures r.1.Crash? <==>
              Retryable(a) && a.view.maxRetry != Num(q.retries + 1) && !a.view.connected
    ensures !Retryable(a) ==> r.1 == Deliver(Forwarded(a.reply, a.view, First(q.args)))
  {
    if Retryable(a) then
      var q' := q.(retries := q.retries + 1);
      if a.view.maxRetry == Num(q'.retries) then
        (q', Deliver(Delivery(Some(RetriesExhausted), Null, a.view.args, First(q.args))))
      else if !a.view.connected then (q', Crash)
      else (q', Reissue)
    else (q, Deliver(Forwarded(a.reply, a.view, First(q.args))))
  }

  /** How many of the first `k` replies the wrapper counted as retryable. */
  function RetryableCount(attempts: seq<Attempt>, k: nat): (n: nat)
    ensures n <= k && n <= |attempts|
    decreases |attempts|
  {
    if k == 0 || |attempts| == 0 then 0
    else (if Retryable(attempts[0]) then 1 else 0) + RetryableCount(attempts[1..], k - 1)
  }

  /** The remaining replies of a query that has one call outstanding. */
  function Resume(q: Instance, attempts: seq<Attempt>): (r: Run)
    ensures r.consumed <= |attempts|
    ensures r.outcome.Pending? ==> r.consumed == |attempts| && |r.calls| == r.consumed
    ensures !r.outcome.Pending? ==> 1 <= r.consumed && |r.calls| + 1 == r.consumed
    ensures forall i :: 0 <= i < |r.calls| ==> r.calls[i] == Issue(q.args)
    ensures forall i :: 0 <= i < |r.calls| ==> Retryable(attempts[i])
    ensures r.retries == q.retries + RetryableCount(attempts, r.consumed)
    ensures r.outcome.Delivered? ==>
              r.outcome.d.args == attempts[r.consumed - 1].view.args && r.outcome.d.lastQuery == First(q.args)
    ensures r.outcome.Delivered? && !Retryable(attempts[r.consumed - 1]) ==>
              r.outcome.d == Forwarded(attempts[r.consumed - 1].reply, attempts[r.consumed - 1].view, First(q.args))
    ensures r.outcome.Delivered? && Retryable(attempts[r.consumed - 1]) ==>
              && r.outcome.d == Delivery(Some(RetriesExhausted), Null, attempts[r.consumed - 1].view.args, First(q.args))
              && attempts[r.consumed - 1].view.maxRetry == Num(r.retries)
    decreases |attempts|
  {
    if |attempts| == 0 then Run([], Pending, 0, q.retries)
    else
      var (q', act) := OnReply(q, attempts[0]);
      match act
      case Deliver(d) => Run([], Delivered(d), 1, q'.retries)
      case Crash => Run([], Raised, 1, q'.retries)
      case Reissue =>
        var rest := Resume(q', attempts[1..]);
        Run([Issue(q.args)] + rest.calls, rest.outcome, rest.consumed + 1, rest.retries)
  }

  /** `new Query(mysql, ...args)`: a fresh counter at 0, the first call, then
      the replies. Without a function argument the driver gets no callback
      and nothing is ever delivered. */
  function Execute(args: seq<Value>, attempts: seq<Attempt>): (r: Run)
    ensures 1 <= |r.calls| && forall i :: 0 <= i < |r.calls| ==> r.calls[i] == Issue(args)
    ensures r.consumed <= |attempts|
    ensures |r.calls| == if r.outcome.Pending? then r.consumed + 1 else r.consumed
    ensures r.retries == RetryableCount(attempts, r.consumed)
    ensures forall i :: 0 <= i < |r.calls| - 1 ==> Retryable(attempts[i])
    ensures r.outcome.Delivered? ==>
              r.outcome.d.args == attempts[r.consumed - 1].view.args && r.outcome.d.lastQuery == First(args)
    ensures r.outcome.Delivered? && !Retryable(attempts[r.consumed - 1]) ==>
              r.outcome.d == Forwarded(attempts[r.consumed - 1].reply, attempts[r.consumed - 1].view, First(args))
    ensures r.outcome.Delivered? && Retryable(attempts[r.consumed - 1]) ==>
              && r.outcome.d == Delivery(Some(RetriesExhausted), Null, attempts[r.consumed - 1].view.args, First(args))
              && attempts[r.consumed - 1].view.maxRetry == Num(r.retries)
    ensures CallbackIndex(args).None? ==> r.outcome.Pending? && r.consumed == 0
  {
    if CallbackIndex(args).None? then Run([Issue(args)], Pending, 0, 0)
    else
      var rest := Resume(Instance(args, 0), attempts);
      Run([Issue(args)] + rest.calls, rest.outcome, rest.consumed, rest.retries)
  }

  // ---------------------------------------------------------------------
  // Properties of one logical query

  /** A first reply that is not retryable reaches the callback unchanged and
      the connection is queried once. */
  lemma FirstReplyForwarded(args: seq<Value>, attempts: seq<Attempt>)
    requires CallbackIndex(args).Some? && |attempts| >= 1
    requires !Retryable(attempts[0])
    ensures Execute(args, attempts)
         == Run([Issue(args)], Delivered(Forwarded(attempts[0].reply, attempts[0].view, First(args))), 1, 0)
  {
  }

  /** The query ends after its first reply with one call exactly when that
      reply is not retryable, or when one retry already reaches the limit. */
  lemma SingleCallIff(args: seq<Value>, attempts: seq<Attempt>)
    requires CallbackIndex(args).Some? && |attempts| >= 1
    ensures (Execute(args, attempts).outcome.Delivered? && |Execute(args, attempts).calls| == 1)
        <==> (!Retryable(attempts[0]) || attempts[0].view.maxRetry == Num(1))
  {
  }

  ghost predicate AllRetryable(attempts: seq<Attempt>) {
    forall i :: 0 <= i < |attempts| ==> Retryable(attempts[i])
  }

  ghost predicate SteadyLimit(attempts: seq<Attempt>, m: int) {
    forall i :: 0 <= i < |attempts| ==> attempts[i].view.maxRetry == Num(m) && attempts[i].view.connected
  }

  lemma {:induction false} ResumeExhausts(q: Instance, attempts: seq<Attempt>, m: nat)
    requires q.retries < m <= q.retries + |attempts|
    requires AllRetryable(attempts) && SteadyLimit(attempts, m)
    ensures var r := Resume(q, attempts);
            && |r.calls| == m - q.retries - 1
            && r.consumed == m - q.retries
            && r.outcome == Delivered(Delivery(Some(RetriesExhausted), Null, attempts[m - q.retries - 1].view.args, First(q.args)))
    decreases |attempts|
  {
    var (q', act) := OnReply(q, attempts[0]);
    if q.retries + 1 < m {
      ResumeExhausts(q', attempts[1..], m);
    }
  }

  /** When every reply is retryable and the limit is a positive integer `m`,
      the connection is queried exactly `m` times and the callback gets the
      exhaustion marker, never the driver's error. */
  lemma ExhaustsAfterMaxRetry(args: seq<Value>, attempts: seq<Attempt>, m: nat)
    requires CallbackIndex(args).Some?
    requires 1 <= m <= |attempts|
    requires AllRetryable(attempts) && SteadyLimit(attempts, m)
    ensures |Execute(args, attempts).calls| == m
    ensures Execute(args, attempts).outcome
         == Delivered(Delivery(Some(RetriesExhausted), Null, attempts[m - 1].view.args, First(args)))
  {
    ResumeExhausts(Instance(args, 0), attempts, m);
  }

  lemma {:induction false} ResumeAnswers(q: Instance, attempts: seq<Attempt>, m: nat)
    requires q.retries < m <= q.retries + |attempts|
    requires SteadyLimit(attempts, m)
    ensures Resume(q, attempts).outcome.Delivered?
    ensures Resume(q, attempts).consumed <= m - q.retries
    decreases |attempts|
  {
    var (q', act) := OnReply(q, attempts[0]);
    if Retryable(attempts[0]) && q.retries + 1 < m {
      ResumeAnswers(q', attempts[1..], m);
    }
  }

  /** With a positive integer limit `m` and a connection, the user callback
      fires exactly once within the first `m` replies, whatever they are. */
  lemma AnsweredWithinMaxRetry(args: seq<Value>, attempts: seq<Attempt>, m: nat)
    requires CallbackIndex(args).Some?
    requires 1 <= m <= |attempts|
    requires SteadyLimit(attempts, m)
    ensures Execute(args, attempts).outcome.Delivered?
    ensures Execute(args, attempts).consumed <= m
  {
    ResumeAnswers(Instance(args, 0), attempts, m);
  }

  lemma {:induction false} ResumeNeverStops(q: Instance, attempts: seq<Attempt>)
    requires AllRetryable(attempts)
    requires forall i :: 0 <= i < |attempts| ==> attempts[i].view.connected
    requires forall i, n: nat :: 0 <= i < |attempts| && n > q.retries ==> attempts[i].view.maxRetry != Num(n)
    ensures Resume(q, attempts).outcome.Pending?
    decreases |attempts|
  {
    if |attempts| > 0 {
      var (q', act) := OnReply(q, attempts[0]);
      ResumeNeverStops(q', attempts[1..]);
    }
  }

  /** A limit that is not a positive integer (a negative number, a string)
      is never equal to the counter: retryable replies are re-issued for as
      long as they keep coming. */
  lemma UnreachableLimitNeverStops(args: seq<Value>, attempts: seq<Attempt>)
    requires CallbackIndex(args).Some?
    requires AllRetryable(attempts)
    requires forall i :: 0 <= i < |attempts| ==> attempts[i].view.connected
    requires forall i, n: nat :: 0 <= i < |attempts| && n >= 1 ==> attempts[i].view.maxRetry != Num(n)
    ensures Execute(args, attempts).outcome.Pending?
    ensures |Execute(args, attempts).calls| == |attempts| + 1
  {
    ResumeNeverStops(Instance(args, 0), attempts);
  }

  lemma {:induction false} ResumeStopsAtClearedPolicy(q: Instance, attempts: seq<Attempt>, j: nat)
    requires j < |attempts| && attempts[j].view.retryable.None?
    ensures !Resume(q, attempts).outcome.Pending?
    ensures Resume(q, attempts).consumed <= j + 1
    decreases |attempts|
  {
    var (q', act) := OnReply(q, attempts[0]);
    if j > 0 {
      ResumeStopsAtClearedPolicy(q', attempts[1..], j - 1);
    }
  }

  /** The retryable codes are read when each reply arrives: once they are
      cleared, the next reply ends the query however it was submitted. */
  lemma ClearedPolicyStopsRetrying(args: seq<Value>, attempts: seq<Attempt>, j: nat)
    requires CallbackIndex(args).Some?
    requires j < |attempts| && attempts[j].view.retryable.None?
    ensures !Execute(args, attempts).outcome.Pending?
    ensures Execute(args, attempts).consumed <= j + 1
  {
    ResumeStopsAtClearedPolicy(Instance(args, 0), attempts, j);
  }
}

=== FILE: registry.dfy ===
/**
 * What both clients share about named profiles: the per-key record, the way
 * `this._key` is read as a truth value, the decision `end()` takes, and the
 * deprecated `open(config)` registration.
 */
module Registry {
  import opened Js

  /** `this[key]`: the configuration, whether it is pooled, and whether a
      connection or pool handle is currently stored in it. */
  datatype Profile = Profile(config: Value, isPool: bool, hasConnection: bool)

  /** The errors the clients throw, named after their messages. */
  datatype Error =
    | KeyOrConfigMissing    // 'key or config is missing'
    | KeyNotString          // 'key should be a string'
    | ConfigNotObject       // 'config should be an object'
    | KeyDoesNotExist       // 'Key does not exist. Add a connection first ...'
    | AddConnectionFirst    // 'Add a connection first by using mysql.add(key, config)'
    | StartConnectionFirst  // '... or start a connection using mysql.use(key)'
    | TypeError             // a property read on null or undefined

  /** `this._key` read as a condition: unset and "" both count as no key. */
  function Active(key: Option<string>): (r: Option<string>)
    ensures r.Some? <==> key.Some? && key.value != ""
    ensures r.Some? ==> r == key
  {
    match key
    case Some(k) => if k == "" then None else Some(k)
    case None => None
  }

  /** What `end()` does with the active profile. */
  datatype EndStep = Close(key: string) | Keep | Fail(error: Error)

  /** `bare` holds the names under which `this[name]` is a non-null value
      other than a profile (a method, say): `end()` reads `is_pool` and
      `connection` on it as undefined. Any other unknown key reads them on
      undefined. */
  function EndDecision(profiles: map<string, Profile>, key: Option<string>, bare: set<string>): (r: EndStep)
    ensures r.Close? <==> Active(key).Some? && Active(key).value in profiles
                          && !profiles[Active(key).value].isPool
                          && profiles[Active(key).value].hasConnection
    ensures r.Close? ==> Some(r.key) == Active(key)
    ensures r.Keep? <==> Active(key).Some? && Active(key).value in profiles
                         && profiles[Active(key).value].isPool
                         && profiles[Active(key).value].hasConnection
    ensures r == Fail(AddConnectionFirst) <==>
              || Active(key).None?
              || (Active(key).value in profiles && !profiles[Active(key).value].hasConnection)
              || (Active(key).value !in profiles && Active(key).value in bare)
    ensures r == Fail(TypeError) <==>
              Active(key).Some? && Active(key).value !in profiles && Active(key).value !in bare
  {
    match Active(key)
    case None => Fail(AddConnectionFirst)
    case Some(k) =>
      if k !in profiles then (if k in bare then Fail(AddConnectionFirst) else Fail(TypeError))
      else if !profiles[k].isPool && profiles[k].hasConnection then Close(k)
      else if !profiles[k].hasConnection then Fail(AddConnectionFirst)
      else Keep
  }

  /** The profiles after `open(config)`: a pool is created under the derived
      key unless that key already holds a connection. */
  function OpenProfiles(profiles: map<string, Profile>, config: Value): (r: map<string, Profile>)
    ensures ConfigKey(config) in r && r[ConfigKey(config)].hasConnection
    ensures r.Keys == profiles.Keys + {ConfigKey(config)}
    ensures forall k :: k in profiles && k != ConfigKey(config) ==> r[k] == profiles[k]
    ensures ConfigKey(config) in profiles && profiles[ConfigKey(config)].hasConnection ==> r == profiles
    ensures !(ConfigKey(config) in profiles && profiles[ConfigKey(config)].hasConnection) ==>
              r[ConfigKey(config)] == Profile(config, true, true)
  {
    var k := ConfigKey(config);
    if k in profiles && profiles[k].hasConnection then profiles
    else profiles[k := Profile(config, true, true)]
  }

  /** Opening the same configuration twice registers nothing new. */
  lemma OpenIdempotent(profiles: map<string, Profile>, config: Value)
    ensures OpenProfiles(OpenProfiles(profiles, config), config) == OpenProfiles(profiles, config)
  {
  }
}
